=== FILE: README.md ===
# Identity core of the pharmacy user service, in Dafny

This project models the identity and credential core of the pharmacy's user
service (`User.Api.FarmaciaArquiSoft`). It covers:

- how a username is derived from a person's names and made unique, ignoring case;
- how a password is hashed into the `PBKDF2|iterations|salt|key` format and checked;
- how a temporary password is drawn;
- how a user record is validated, built and registered, updated, soft-deleted and re-passworded;
- how a login is resolved;
- how a role is checked against an action.

The service's C# classes map onto Dafny modules:

| module | file | models |
|---|---|---|
| `Strings` | `strings.dfy` | .NET whitespace, `Trim`, ordinal case-insensitive comparison, `Split`/join |
| `Decimal` | `decimal.dfy` | `int.ToString()` and `int.Parse` |
| `UsernameGenerator` | `username.dfy` | `GenerateBase` and `EnsureUnique` |
| `PasswordService` | `password.dfy` | hashing, verification, `GenerateRandomPassword` |
| `Entities` | `entities.dfy` | the user record and the repository, as a sequence of records |
| `UserValidator` | `validator.dfy` | `Validate` and its four regular expressions |
| `UserBuilder`, `UserFactory` | `builder.dfy`, `factory.dfy` | the fluent builder and `CreateForRegister` |
| `Failures` | `failures.dfy` | the exceptions the services throw, as values |
| `UserPasswordService` | `password_change.dfy` | `ChangePasswordAsync` |
| `AuthenticationService` | `authentication.dfy` | `AuthenticateAsync` |
| `AuthorizationService` | `authorization.dfy` | `CanPerformAction` |
| `UserFacade` | `facade.dfy` | `RegisterAsync`, `UpdateAsync`, `SoftDeleteAsync` |

A few things in the service are not deterministic, and the model makes each one an explicit input:

- Each service call is a pure function from the current repository to the
  repository after the write, or a `Failure`. A `Failure` is what the source
  throws: `NotFoundException`, a `DomainException` per message, a
  `ValidationException` with its field errors, an exception escaping from
  password verification, or the `ArgumentException` that Unicode
  normalisation throws on a lone surrogate or on the noncharacter U+FFFE.
- Randomness is a sequence of draws: one per `RandomNumberGenerator.GetInt32` call.
- The salt is a parameter.
- The clock is a timestamp parameter.
- PBKDF2 and base64 are uninterpreted functions. The model relies on three
  laws about them, collected in `PasswordService.Lawful`:
  - PBKDF2 returns the requested number of bytes;
  - base64 decodes what it encodes;
  - base64 output contains no `|`.

## Model

| member | source | states |
|---|---|---|
| Strings.TrimBy | User.Infraestructure/Persistence/UserBuilder.cs:19-29 | the result is the slice left after removing the maximal leading and trailing runs of dropped characters; both of its ends are kept characters |
| Strings.Trim | User.Infraestructure/Persistence/UserBuilder.cs:19-29 | `Trim` yields the empty string exactly for blank input. Otherwise it yields the slice of the input between its leading and its trailing whitespace runs, which are whitespace only, and the result has no whitespace at either end |
| Strings.TrimByUntouched | User.Application/Services/UsernameGenerator.cs:15 | a string whose ends are already kept is returned unchanged |
| Strings.TrimUntouched | User.Application/Services/UsernameGenerator.cs:15 | trimming a string without outer whitespace changes nothing |
| Strings.TrimIdempotent | User.Infraestructure/Persistence/UserBuilder.cs:19-29 | trimming twice equals trimming once |
| Strings.Utf16Length | User.Application/Services/UserPasswordService.cs:28 | `string.Length` counts UTF-16 code units. A single character counts two when it lies outside the Basic Multilingual Plane and one otherwise; with `Utf16LengthAppend` this fixes the count of every string |
| Strings.Utf16LengthAppend | User.Application/Services/UserPasswordService.cs:28 | code-unit lengths add up over concatenation |
| Strings.EqualsIgnoreCaseIsEquivalence | User.Application/Services/UsernameGenerator.cs:34 | the ordinal case-insensitive comparison behind the hash sets and lookups is reflexive, symmetric and transitive |
| Strings.Split | User.Application/Services/PasswordService.cs:28 | `Split` yields at least one field and no field contains the separator |
| Strings.SplitNoSeparator | User.Application/Services/PasswordService.cs:28-29 | a string without the separator splits into itself alone |
| Strings.SplitField | User.Application/Services/PasswordService.cs:28 | a separator-free prefix followed by the separator is split off as the first field |
| Strings.SplitJoin | User.Application/Services/PasswordService.cs:23-29 | splitting separator-free fields joined with the separator gives the fields back |
| Decimal.NatToString | User.Application/Services/PasswordService.cs:23 | the printed numeral is non-empty, all digits, and has no leading zero |
| Decimal.DigitsValueOfNatToString | User.Application/Services/PasswordService.cs:23 | the printed numeral reads back as the number |
| Decimal.NatToStringInjective | User.Application/Services/UsernameGenerator.cs:39 | distinct numbers print differently, so the suffix search never tries the same numeral twice |
| Decimal.NatToStringPow10 | User.Application/Services/UsernameGenerator.cs:39-43 | 10^k prints with k+1 digits |
| Decimal.NatToStringShort | User.Application/Services/UsernameGenerator.cs:39-43 | a number below 10^k prints with at most k digits |
| Decimal.ParseInt32 | User.Application/Services/PasswordService.cs:31 | `int.Parse` succeeds only with a 32-bit value and only on text containing a digit; otherwise it fails |
| Decimal.DropTrailingNuls | User.Application/Services/PasswordService.cs:31 | the trailing NUL padding `int.Parse` tolerates is exactly the maximal run of NULs at the end; what is left is a prefix of the input that does not end in NUL |
| Decimal.DropTrailingNulsAppend | User.Application/Services/PasswordService.cs:31 | one more trailing NUL leaves the unpadded text unchanged |
| Decimal.TrailingNulIgnored | User.Application/Services/PasswordService.cs:31 | a trailing NUL never changes what a text parses to |
| Decimal.ParseInt32OfNatToString | User.Application/Services/PasswordService.cs:23-31 | parsing a printed non-negative 32-bit number gives it back |
| UsernameGenerator.Initial | User.Application/Services/UsernameGenerator.cs:15 | a blank name has no initial; otherwise the initial is the first non-whitespace character of the name |
| UsernameGenerator.Clean | User.Application/Services/UsernameGenerator.cs:16-26 | the cleaned text consists only of `[a-z0-9]` and is no longer than the input. A single character is kept, folded, exactly when it folds into `[a-z0-9]`; with `CleanAppend` this fixes the result of every input |
| UsernameGenerator.GenerateBase | User.Application/Services/UsernameGenerator.cs:13-30 | The generator fails exactly when normalisation throws: the initial of the first name or of the maternal surname lies outside the Basic Multilingual Plane (a lone surrogate is left), or U+FFFE occurs in either initial or in the paternal surname. Otherwise the base is a non-empty handle of at most 20 characters. It is a prefix of the cleaned initial+surname+initial: either all of it or the first 20. When nothing survives cleaning it is "user" |
| UsernameGenerator.CleanHandle | User.Application/Services/UsernameGenerator.cs:16-26 | cleaning a lowercase handle is the identity |
| UsernameGenerator.CleanAppend | User.Application/Services/UsernameGenerator.cs:20-26 | cleaning works character by character, so it distributes over concatenation |
| UsernameGenerator.GenerateBaseOfHandle | User.Application/Services/UsernameGenerator.cs:13-30 | a short handle given as first letter + rest, with no maternal surname, comes back unchanged |
| UsernameGenerator.BlankNamesContributeNothing | User.Application/Services/UsernameGenerator.cs:15 | a blank first name or maternal surname gives the same base as an absent one |
| UsernameGenerator.GenerateBaseExample | User.Application/Services/UsernameGenerator.cs:13-30 | Ana García López gets the base "agarcial" (accent stripped) |
| UsernameGenerator.GenerateBaseRejectsNonCharacter | User.Application/Services/UsernameGenerator.cs:16-18 | a U+FFFE inside the paternal surname makes normalisation throw, so no base is produced |
| UsernameGenerator.CleanExample | User.Application/Services/UsernameGenerator.cs:18-26 | folding and cleaning "AGarcíaL" gives "agarcial" |
| UsernameGenerator.Candidate | User.Application/Services/UsernameGenerator.cs:39-43 | the i-th candidate is a prefix of the base followed by the numeral of i. It is the whole base when that fits in 20 characters. Otherwise a non-empty base is cut so that the candidate has exactly 20 characters, or keeps one character of the base when the numeral alone fills 20 |
| UsernameGenerator.CandidateAtBoundIsFree | User.Application/Services/UsernameGenerator.cs:37-45 | some suffix (10^m, with m the longest existing length) gives a candidate longer than every existing name, so the loop terminates |
| UsernameGenerator.FirstFreeUnique | User.Application/Services/UsernameGenerator.cs:37-45 | at most one suffix is the first free one |
| UsernameGenerator.FirstFreeIndex | User.Application/Services/UsernameGenerator.cs:37-45 | the search finds the first suffix whose candidate is free, within the bound |
| UsernameGenerator.EnsureUnique | User.Application/Services/UsernameGenerator.cs:32-47 | the result never collides with an existing name, ignoring case. A free base is kept. Otherwise the result is the candidate of the first free suffix 1, 2, …. Handles stay handles |
| UsernameGenerator.EnsureUniqueLoop | User.Application/Services/UsernameGenerator.cs:32-47 | the source's while loop returns a free name, namely the one `EnsureUnique` defines |
| UsernameGenerator.EnsureUniqueKeepsFreeBase | User.Application/Services/UsernameGenerator.cs:35-37 | a base not in the set is returned unchanged |
| UsernameGenerator.EnsureUniqueLength | User.Application/Services/UsernameGenerator.cs:41-43 | the result keeps the 20-character limit |
| UsernameGenerator.EnsureUniqueExample | User.Application/Services/UsernameGenerator.cs:32-47 | with "agarcial" taken, "agarcial1" is chosen |
| PasswordService.HashPassword | User.Application/Services/PasswordService.cs:14-24 | the stored value splits at the bar separator into the tag, the numeral 100000, the base64 salt and the base64 32-byte key |
| PasswordService.DiffUpToZero | User.Application/Services/PasswordService.cs:41-43 | the OR of the XORs of the first n byte pairs is zero exactly when the prefixes are equal |
| PasswordService.FixedTimeEquals | User.Application/Services/PasswordService.cs:40-43 | the comparison loop visits every byte and answers key equality |
| PasswordService.VerifyPassword | User.Application/Services/PasswordService.cs:26-44 | A wrong field count or wrong tag gives false. A malformed or non-positive field is an error, reported per field in parse order. The answer is true exactly when PBKDF2 re-derives the stored key from the stored salt and iterations |
| PasswordService.VerifyHashed | User.Application/Services/PasswordService.cs:14-44 | verifying against a fresh hash never errs, and answers whether the two passwords derive the same key |
| PasswordService.VerifyOwnHash | User.Application/Services/PasswordService.cs:14-44 | round trip: a password verifies against its own hash |
| PasswordService.VerifyOtherPassword | User.Application/Services/PasswordService.cs:14-44 | a password whose derived key differs is refused |
| PasswordService.VerifyFailureIndependentOfPassword | User.Application/Services/PasswordService.cs:28-37 | whether verification throws depends on the stored value only, not on the password |
| PasswordService.CharacterClasses | User.Application/Services/PasswordService.cs:49-52 | the four alphabets hold lowercase letters, uppercase letters, digits, and password characters respectively |
| PasswordService.EffectiveLength | User.Application/Services/PasswordService.cs:48 | the length produced is at least 8, and equals the request from 8 upwards |
| PasswordService.PickOutcomes | User.Application/Services/PasswordService.cs:56-59 | every draw picks a character of the set, and every character of the set is picked by some draw |
| PasswordService.UnshuffledClasses | User.Application/Services/PasswordService.cs:54-64 | before the shuffle, the list starts with one lowercase, one uppercase, one digit and one symbol, and contains only password characters |
| PasswordService.SwapPermutes | User.Application/Services/PasswordService.cs:69 | a swap permutes the list |
| PasswordService.ShuffleDownPermutes | User.Application/Services/PasswordService.cs:66-70 | the Fisher–Yates pass permutes the list and keeps its length |
| PasswordService.PermutationKeepsClasses | User.Application/Services/PasswordService.cs:54-70 | any rearrangement keeps one character of each class and nothing else |
| PasswordService.RandomPasswordProperties | User.Application/Services/PasswordService.cs:46-72 | the password has length max(length, 8), is a permutation of the unshuffled list, and has each class with nothing outside them, for every sequence of draws |
| PasswordService.GenerateRandomPassword | User.Application/Services/PasswordService.cs:46-72 | the source's steps produce the password `RandomPassword` defines, of the effective length |
| PasswordService.FillRequired | User.Application/Services/PasswordService.cs:54-64 | the filling loop produces the unshuffled list |
| PasswordService.ShuffleInPlace | User.Application/Services/PasswordService.cs:66-70 | the in-place swap loop computes the Fisher–Yates pass over the draws after the first n |
| Entities.IndexOfId | User.Domain/Ports/IUserRepository.cs:13 | finds the first record with the identifier, or reports that none has it |
| Entities.GetById | User.Domain/Ports/IUserRepository.cs:13 | the lookup is empty exactly when no record has the identifier; otherwise it returns a stored record with that identifier |
| Entities.Update | User.Domain/Ports/IUserRepository.cs:15-16 | records with the updated identifier are replaced; every other record is kept in place |
| Entities.GetByIdAfterUpdate | User.Domain/Ports/IUserRepository.cs:13-15 | reading back after an update returns the updated record |
| Entities.IndexOfIdFirst | User.Domain/Ports/IUserRepository.cs:13 | the first position with the identifier is the one found |
| Entities.Create | User.Application/Services/UserFacade.cs:70 | the record is appended under an identifier no stored record has, and is otherwise unchanged |
| Entities.Usernames | User.Application/Services/UserFacade.cs:48 | the usernames of the stored records, in order |
| UserValidator.Key | User.Domain/Validators/UserValidator.cs:36-105 | every field is filed under a non-empty key |
| UserValidator.KeysDistinct | User.Domain/Validators/UserValidator.cs:36-105 | two fields share a key only if they are the same field |
| UserValidator.PresentNameErrors | User.Domain/Validators/UserValidator.cs:39-42 | a present name gets a length error exactly outside 2..50 UTF-16 code units and a letters error exactly when the pattern fails; no other error, and at most those two |
| UserValidator.RequiredNameErrors | User.Domain/Validators/UserValidator.cs:35-43 | a blank required name gets only the "required" error; a non-blank one never gets it |
| UserValidator.OptionalNameErrors | User.Domain/Validators/UserValidator.cs:46-52 | an absent or blank maternal surname gets no error |
| UserValidator.MailErrors | User.Domain/Validators/UserValidator.cs:66-74 | a blank mail gets only "required". Otherwise "too long" is reported exactly above 100 UTF-16 code units and "format" exactly when the pattern fails; no other error, and at most two |
| UserValidator.CiErrors | User.Domain/Validators/UserValidator.cs:77-90 | a blank CI gets only "required"; otherwise the errors are exactly one "format" error when the pattern fails, and none when it matches |
| UserValidator.PhoneErrors | User.Domain/Validators/UserValidator.cs:95-106 | a blank phone gets only "required"; otherwise "only digits" and "length 6..10 code units" each exactly when their rule fails; no other error, and at most two |
| UserValidator.Validate | User.Domain/Validators/UserValidator.cs:30-109 | the result is a success exactly when the record satisfies every field rule |
| UserValidator.ErrorsOf | User.Domain/Validators/ResultExtension.cs:13-17 | the errors filed under one field are exactly those carrying that field |
| UserValidator.ErrorsOfAppend | User.Domain/Validators/ResultExtension.cs:13-17 | filtering by field distributes over appending errors |
| UserValidator.ErrorsOfOwn | User.Domain/Validators/ResultExtension.cs:13-17 | filtering a list owned by one field gives all of it for that field and nothing for the others |
| UserValidator.ErrorsOfGroups | User.Domain/Validators/UserValidator.cs:30-109 | filtering six groups in sequence gives each group only to its own field |
| UserValidator.ValidateByField | User.Domain/Validators/UserValidator.cs:30-109 | the errors under each field come only from that field's own rule |
| UserValidator.ValidateFields | User.Domain/Validators/UserValidator.cs:30-109 | the errors under each field are exactly that field's rule applied to that field's value |
| UserValidator.PickGroup | User.Domain/Validators/UserValidator.cs:30-109 | with the six groups owned in order, a field sees only its own group |
| UserValidator.FieldErrorsIndependent | User.Domain/Validators/UserValidator.cs:30-109 | two records that agree on a field get the same errors for it, whatever else differs |
| UserValidator.EmailTextIsMailShape | User.Domain/Validators/UserValidator.cs:20 | the mail pattern holds exactly when the text is local part, `@`, a domain with a dot, all free of `@` and whitespace |
| UserValidator.CiTextIsCiShape | User.Domain/Validators/UserValidator.cs:25-28 | the CI pattern holds exactly when the text is an optional letter, 5..12 digits and an optional letter |
| UserValidator.CiAccepted | User.Domain/Validators/UserValidator.cs:25-28 | every optional letter, 5 to 12 digits and optional letter passes the CI rule |
| UserValidator.CiExamplesAccepted | User.Domain/Validators/UserValidator.cs:25-28 | the four documented examples 1234567, E1234567, 1234567A and E1234567A are accepted |
| UserValidator.CiTooShortRejected | User.Domain/Validators/UserValidator.cs:25-28 | four digits are a format error |
| UserValidator.PhoneTrailingLineFeed | User.Domain/Validators/UserValidator.cs:101-105 | `^\d+$` without `\z` lets "123456" followed by a line feed pass every phone rule |
| UserBuilder.TrimOrEmpty | User.Infraestructure/Persistence/UserBuilder.cs:19-20 | null becomes "", anything else is trimmed, and the result has no outer whitespace |
| UserBuilder.WithNames | User.Infraestructure/Persistence/UserBuilder.cs:17-23 | names are trimmed; the maternal surname is null exactly when it was null or blank, and otherwise non-empty; no other field changes |
| UserBuilder.WithContact | User.Infraestructure/Persistence/UserBuilder.cs:25-31 | mail, phone and CI are trimmed (null to ""); nothing else changes |
| UserBuilder.WithRole | User.Infraestructure/Persistence/UserBuilder.cs:33-37 | only the role is set |
| UserBuilder.WithAudit | User.Infraestructure/Persistence/UserBuilder.cs:39-47 | the actor is creator and updater, both times are now, and the record is active; nothing else changes |
| UserBuilder.WithUsername | User.Infraestructure/Persistence/UserBuilder.cs:49-53 | only the username is set (null to "") |
| UserBuilder.WithPasswordHash | User.Infraestructure/Persistence/UserBuilder.cs:55-59 | only the password hash is set (null to "") |
| UserBuilder.NamesAndContactCommute | User.Infraestructure/Persistence/UserBuilder.cs:17-31 | the names and contact steps commute |
| UserBuilder.WithNamesOverwrites | User.Infraestructure/Persistence/UserBuilder.cs:17-23 | a second names step overrides the first completely |
| UserBuilder.WithNamesIdempotent | User.Infraestructure/Persistence/UserBuilder.cs:17-23 | feeding built names back through the builder changes nothing |
| UserFactory.CreateForRegister | User.Infraestructure/Persistence/UserFactory.cs:23-38 | The factory fails exactly when the generator's normalisation throws (an initial outside the Basic Multilingual Plane, or U+FFFE in an initial or the paternal surname). Otherwise the username is the unique handle derived from the names, free among the existing ones. The fields are trimmed, and the role is the cast integer. The audit is the actor and now. No credential, id or change flag is set |
| UserPasswordService.NewPasswordRule | User.Application/Services/UserPasswordService.cs:28-38 | a new password is accepted exactly when it is non-blank, at least 8 UTF-16 code units long, and has a digit, an upper, a lower and a symbol; otherwise the first broken rule in the source's order is reported |
| UserPasswordService.NewPasswordLengthInCodeUnits | User.Application/Services/UserPasswordService.cs:28-38 | six characters, two of them outside the Basic Multilingual Plane, meet the 8-unit minimum |
| UserPasswordService.WithNewPassword | User.Application/Services/UserPasswordService.cs:43-47 | the stored credential is the hash of the new password, which verifies against it; the version rises by one; the flag is set; both times are now; nothing else changes |
| UserPasswordService.ChangePassword | User.Application/Services/UserPasswordService.cs:21-50 | Not found exactly when the id is missing. A wrong current password is refused as incorrect. A stored hash that cannot be parsed surfaces as that parse failure, not as a refusal. Success exactly when the current password verifies, the new one meets the rules and does not verify against the old hash. On success only that record is replaced |
| UserPasswordService.WrongCurrentPasswordFirst | User.Application/Services/UserPasswordService.cs:25-26 | a wrong current password is refused before, and independently of, the new one |
| UserPasswordService.NewPasswordRulesInOrder | User.Application/Services/UserPasswordService.cs:28-41 | once the current password is accepted, the first broken rule is the outcome. A rule-abiding new password that the stored hash already accepts is refused as unchanged, and so is the current password itself |
| UserPasswordService.TwoChanges | User.Application/Services/UserPasswordService.cs:43-49 | two successful changes raise the version by two, keep the flag set, and the latest password verifies |
| AuthenticationService.FirstActive | User.Application/Services/AuthenticationService.cs:24 | finds the first non-deleted record whose username matches ignoring case, or reports that none exists |
| AuthenticationService.Authenticate | User.Application/Services/AuthenticationService.cs:21-30 | Success exactly when the first active match verifies the password; the result is that stored, active, matching record. No active match, or a first active match whose hash the password does not verify, gives the one generic refusal. A first active match whose stored hash cannot be parsed gives that parse failure instead |
| AuthenticationService.UnknownUserAndWrongPasswordLookAlike | User.Application/Services/AuthenticationService.cs:24-27 | an unknown username and a wrong password give the identical refusal |
| AuthenticationService.LaterRecordsIgnored | User.Application/Services/AuthenticationService.cs:24 | records after the first active match, duplicates included, never affect the outcome |
| AuthenticationService.FirstActiveExtends | User.Application/Services/AuthenticationService.cs:24 | appending records keeps the first active match |
| AuthenticationService.CorrectCredentialsAccepted | User.Application/Services/AuthenticationService.cs:21-30 | the holder of a hash logs in with its password |
| AuthenticationService.DeletedRecordRefused | User.Application/Services/AuthenticationService.cs:24-27 | a soft-deleted account is refused even with the right password |
| AuthenticationService.AppendedUniqueRecordLogsIn | User.Application/Services/AuthenticationService.cs:21-30 | an appended active record under a fresh username logs in with a password it accepts |
| AuthenticationService.FirstActiveAppendedUnique | User.Application/Services/AuthenticationService.cs:23-25 | a record appended active under a username no earlier record carries is the first match for that username |
| AuthorizationService.AllowedActions | User.Application/Services/AuthorizationService.cs:14-19 | cashiers may Vender and VerMisDatos, storekeepers Almacenar and VerMisDatos, other roles nothing |
| AuthorizationService.CanPerformAction | User.Application/Services/AuthorizationService.cs:11-21 | administrators may do anything; cashiers and storekeepers exactly their two actions, ignoring case; unknown roles nothing |
| AuthorizationService.CaseInsensitive | User.Application/Services/AuthorizationService.cs:20 | the decision is the same for any two spellings of an action that differ only in case |
| AuthorizationService.RoleExamples | User.Application/Services/AuthorizationService.cs:11-21 | "vender" is allowed to cashiers, "ALMACENAR" to storekeepers, and neither role gets the other's action |
| UserFacade.RegistrationCandidate | User.Application/Services/UserFacade.cs:48-57 | the build fails exactly when the generator's normalisation throws on the names (an initial outside the Basic Multilingual Plane, or U+FFFE in an initial or the paternal surname). Otherwise the built record has the username `EnsureUnique(GenerateBase(names), stored usernames)`, free among the stored ones. Its names, mail, phone and CI are trimmed, and the maternal surname is the builder's (absent when blank). It has the submitted role, the audit stamps, version 1, no change, and the hash of the temporary password under the given salt, which that password verifies |
| UserFacade.Admit | User.Application/Services/UserFacade.cs:59-70 | Validation errors come first, then a duplicate CI, then a duplicate mail. Insertion happens exactly when none applies; the record is then stored under a fresh id and is valid |
| UserFacade.RegisterWith | User.Application/Services/UserFacade.cs:44-70 | The names that break the generator (an initial outside the Basic Multilingual Plane, or U+FFFE in an initial or the paternal surname) give exactly the normalisation failure. Otherwise the built record is screened: an invalid record gets its validation errors, then a CI in use is refused, then a mail in use. Registration succeeds exactly when none applies, and stores the built record under a fresh id, appended to the repository. Its username matches no stored one, ignoring case; its password is the hash of the temporary password under the given salt, which verifies, at version 1, unchanged; the record is valid and active |
| UserFacade.Register | User.Application/Services/UserFacade.cs:39-85 | a blank mail is refused first, and only then. For a non-blank mail, names that break the generator (an initial outside the Basic Multilingual Plane, or U+FFFE in an initial or the paternal surname) give the normalisation failure. Otherwise the record built with the generated 12-character temporary password is screened in the order validation, CI, mail. Registration succeeds exactly when all pass, storing that record; the handed-out password verifies against the stored hash |
| UserFacade.TemporaryPasswordShape | User.Application/Services/UserFacade.cs:54 | the temporary password has 12 characters with a lowercase letter, an uppercase letter, a digit and a symbol |
| UserFacade.RegisteredUserCanLogIn | User.Application/Services/UserFacade.cs:39-84 | the new user logs in with the mailed username and temporary password |
| UserFacade.RegisterPreservesUniqueness | User.Application/Services/UserFacade.cs:63-70 | registration keeps usernames, CIs (ignoring case) and ids unique |
| UserFacade.Edited | User.Application/Services/UserFacade.cs:95-104 | the submitted names, contacts and role plus the update stamps are copied; identity, credential, deletion and creation fields are kept |
| UserFacade.UpdateUser | User.Application/Services/UserFacade.cs:91-118 | Not found first. Then a CI used by another record, then a non-blank mail used by another record, then validation, which reports the validator's errors. Success exactly when all pass, and then only that record is replaced |
| UserFacade.UpdatePreservesUniqueCis | User.Application/Services/UserFacade.cs:106-117 | with unique ids, an update keeps CIs and ids unique |
| UserFacade.SoftDelete | User.Application/Services/UserFacade.cs:123-130 | Not found exactly when the id is missing. Otherwise the record stays, flagged deleted and stamped, and every other record is unchanged |
| UserFacade.SoftDeletedCannotLogIn | User.Application/Services/UserFacade.cs:123-130 | after a soft delete, no login resolves to that identifier |

## Left out

- Asynchrony, dependency injection and the controllers are left out. Each facade call is one atomic transition. The check-then-insert race between two concurrent registrations is not modelled.
- The welcome mail is sent best effort and its failure is swallowed, so it has no part in the model. Its body text is not modelled. JWT issuing is not part of this model.
- The repository implementation is not part of this model. The port declares `Create` without a result, while the facade uses the created record. The model assumes four things:
  - `GetById` returns the first record with the id;
  - `Update` and `Delete` replace every record with the id;
  - `Create` assigns the largest id plus one;
  - `GetAll` returns every record, deleted ones included.
- `GetByIdAsync`, `ListAsync` and the facade's `ChangePasswordAsync`, `AuthenticateAsync` and `CanPerformAction` are one-line delegations. They are modelled by the members they delegate to.
- The `UserEntity` and `UserRole` declarations are not part of this model. The roles are assumed to be the integers 0, 1 and 2 in the order Administrador, Cajero, Almacenero. A null string field is the empty string, except the maternal surname, which is optional.
- The builder is assumed fresh for each `CreateForRegister` call. One registration is one request scope.
- PasswordService.Lawful: PBKDF2 and base64 are uninterpreted. The model assumes only the three laws stated there. Only the `NET6_0_OR_GREATER` branch (PBKDF2 with SHA-256) is modelled.
- PasswordService.VerifyPassword: the exception PBKDF2 throws for a non-positive iteration count becomes the `NonPositiveIterations` error. Other parameter exceptions are not modelled.
- PasswordService.HashPassword: the salt is an input of 16 bytes, not drawn inside.
- PasswordService.GenerateRandomPassword: a random draw is an arbitrary natural number reduced into range. This covers every outcome, but says nothing about the distribution.
- Strings.EqualsIgnoreCase: `OrdinalIgnoreCase` is modelled with ASCII case mapping only. Non-ASCII letters compare exactly.
- UsernameGenerator.FoldChar: lowercasing, decomposition and removal of non-spacing marks are modelled for ASCII and for ÁÉÍÓÚÜÑ/áéíóúüñ only. Other characters pass through and are then dropped by the `[a-z0-9]` filter unless they are ASCII.
- UsernameGenerator.NormalizationRejects: normalisation is modelled as rejecting a lone surrogate and U+FFFE, the characters .NET's ICU-based normalisation refuses. Other platforms' normalisation may refuse further code points; that is not modelled.
- UsernameGenerator.EnsureUniqueLoop: the counter is unbounded. The source's 32-bit `i` would overflow only after 2^31 collisions.
- Decimal.ParseInt32: its contract states only the 32-bit range and the presence of a digit. The rest of its behaviour is pinned down by the round trip with `NatToString`, which is the only way hashes are written, and by `TrailingNulIgnored`. The current culture's sign symbols are assumed to be `-` and `+`.
- UsernameGenerator.EnsureUniqueLength: proved only while the suffix has fewer than 20 digits.
- UsernameGenerator.Candidate: lengths are counted in characters, not UTF-16 code units. Its only caller passes a handle made of `[a-z0-9]`, where the two agree. The cut is also bounded by the base's length. On an empty base with a suffix of 20 or more digits, the source's slice would throw. Its 32-bit counter never gets that far.
- UserPasswordService.HasSymbol: `\W` is modelled with ASCII word characters. Every other character of the Basic Multilingual Plane counts as a word character. A symbol there such as `€` counts as a symbol in .NET but not here. A character beyond the plane counts as a symbol, as its two surrogates do in .NET.
- UserPasswordService.HasDigit: `\d` is modelled as ASCII digits. The same holds for the phone and CI patterns. .NET also accepts other Unicode decimal digits.
- UserValidator.CiErrors: `RegexOptions.IgnoreCase` is modelled as accepting ASCII letters of either case.
- UserValidator.Validate: error messages are kinds of problem, not text.
- UserPasswordService.WithNewPassword: the version is an unbounded integer. The source's 32-bit `password_version += 1` would wrap after 2^31 changes.
- UserValidator.Validate: a null phone makes the source throw a `NullReferenceException` at `user.phone.ToString(...)` (UserValidator.cs line 93). In the model a null string is "", so "required" is reported instead. Only `UpdateAsync` can pass a null phone; registration trims it into "".
- Timestamps: `DateTime.Now` is one input per call, so the two reads in a call are equal.

=== FILE: authentication.dfy ===
/** Login (User.Application/Services/AuthenticationService.cs): the first
    active record whose username matches, ignoring case, is the only one whose
    password is tried, and every refusal looks the same to the caller. */
module AuthenticationService {
  import opened Options
  import opened Strings
  import opened Entities
  import opened PasswordService
  import opened Failures

  /** The record `AuthenticateAsync` picks for `username`. */
  predicate IsCandidate(u: UserEntity, username: string) {
    EqualsIgnoreCase(u.username, username) && !u.isDeleted
  }

  /** `FirstOrDefault`: the position of the first candidate record, if any. */
  function FirstActive(repo: Repository, username: string): (r: Option<nat>)
    ensures r.Some? ==> r.value < |repo| && IsCandidate(repo[r.value], username)
                        && forall k :: 0 <= k < r.value ==> !IsCandidate(repo[k], username)
    ensures r.None? <==> forall k :: 0 <= k < |repo| ==> !IsCandidate(repo[k], username)
  {
    if |repo| == 0 then None
    else if IsCandidate(repo[0], username) then Some(0)
    else match FirstActive(repo[1..], username)
      case None => None
      case Some(k) => Some(k + 1)
  }

  /** `AuthenticateAsync`: the matched record, or the single generic refusal.
      A stored hash that cannot be parsed surfaces as `Unexpected`, as the
      exception escaping from `VerifyPassword` does. */
  function Authenticate(repo: Repository, username: string, password: string, c: Crypto): (r: Result<UserEntity, Failure>)
    requires Lawful(c)
    ensures r.Ok? ==> r.value in repo && !r.value.isDeleted && EqualsIgnoreCase(r.value.username, username)
    ensures r.Ok? ==> VerifyPassword(password, r.value.password, c) == Ok(true)
    ensures r.Ok? <==> FirstActive(repo, username).Some?
                       && VerifyPassword(password, repo[FirstActive(repo, username).value].password, c) == Ok(true)
    ensures r.Ok? ==> r.value == repo[FirstActive(repo, username).value]
    ensures r.Err? ==> r.error == Domain(InvalidCredentials) || r.error.Unexpected?
    ensures FirstActive(repo, username).Some?
            && VerifyPassword(password, repo[FirstActive(repo, username).value].password, c).Err? ==>
              r == Err(Unexpected(VerifyPassword(password, repo[FirstActive(repo, username).value].password, c).error))
    ensures FirstActive(repo, username).None? ==> r == Err(Domain(InvalidCredentials))
    ensures FirstActive(repo, username).Some?
            && VerifyPassword(password, repo[FirstActive(repo, username).value].password, c) == Ok(false) ==>
              r == Err(Domain(InvalidCredentials))
  {
    match FirstActive(repo, username)
    case None => Err(Domain(InvalidCredentials))
    case Some(k) =>
      match VerifyPassword(password, repo[k].password, c)
      case Err(e) => Err(Unexpected(e))
      case Ok(false) => Err(Domain(InvalidCredentials))
      case Ok(true) => Ok(repo[k])
  }

  /** An unknown (or only soft-deleted) username and a wrong password for a
      known one are refused with the identical outcome. */
  lemma UnknownUserAndWrongPasswordLookAlike(repo: Repository, unknown: string, known: string,
                                             password: string, c: Crypto)
    requires Lawful(c)
    requires forall k :: 0 <= k < |repo| ==> !IsCandidate(repo[k], unknown)
    requires FirstActive(repo, known).Some?
    requires VerifyPassword(password, repo[FirstActive(repo, known).value].password, c) == Ok(false)
    ensures Authenticate(repo, unknown, password, c) == Authenticate(repo, known, password, c)
    ensures Authenticate(repo, unknown, password, c) == Err(Domain(InvalidCredentials))
  {
  }

  /** Records after the first candidate are never looked at: appending any
      records, duplicates included, changes nothing once a candidate exists. */
  lemma LaterRecordsIgnored(repo: Repository, later: Repository, username: string, password: string, c: Crypto)
    requires Lawful(c)
    requires FirstActive(repo, username).Some?
    ensures Authenticate(repo + later, username, password, c) == Authenticate(repo, username, password, c)
  {
    var k := FirstActive(repo, username).value;
    FirstActiveExtends(repo, later, username, k);
  }

  lemma {:induction false} FirstActiveExtends(repo: Repository, later: Repository, username: string, k: nat)
    requires FirstActive(repo, username) == Some(k)
    ensures FirstActive(repo + later, username) == Some(k)
  {
    if k > 0 {
      assert (repo + later)[1..] == repo[1..] + later;
      FirstActiveExtends(repo[1..], later, username, k - 1);
    }
  }

  /** The holder of the hash of `password` logs in with it, provided theirs is
      the first active record with that username. */
  lemma CorrectCredentialsAccepted(repo: Repository, k: nat, password: string, salt: seq<byte>, c: Crypto)
    requires Lawful(c) && |salt| == SaltSize
    requires k < |repo| && FirstActive(repo, repo[k].username) == Some(k)
    requires repo[k].password == HashPassword(password, salt, c)
    ensures Authenticate(repo, repo[k].username, password, c) == Ok(repo[k])
  {
    VerifyOwnHash(password, salt, c);
  }

  /** A soft-deleted record is refused even with its correct password, when it
      is the only record carrying that username. */
  lemma DeletedRecordRefused(repo: Repository, k: nat, password: string, salt: seq<byte>, c: Crypto)
    requires Lawful(c) && |salt| == SaltSize
    requires k < |repo| && repo[k].isDeleted
    requires forall j :: 0 <= j < |repo| && j != k ==> !EqualsIgnoreCase(repo[j].username, repo[k].username)
    requires repo[k].password == HashPassword(password, salt, c)
    ensures Authenticate(repo, repo[k].username, password, c) == Err(Domain(InvalidCredentials))
  {
  }

  /** A record appended under a username no earlier record carries, deleted
      or not, logs in with any password its hash accepts. */
  lemma AppendedUniqueRecordLogsIn(repo: Repository, u: UserEntity, password: string, c: Crypto)
    requires Lawful(c)
    requires forall k :: 0 <= k < |repo| ==> !EqualsIgnoreCase(repo[k].username, u.username)
    requires !u.isDeleted
    requires VerifyPassword(password, u.password, c) == Ok(true)
    ensures Authenticate(repo + [u], u.username, password, c) == Ok(u)
  {
    FirstActiveAppendedUnique(repo, u);
    assert (repo + [u])[|repo|] == u;
  }

  /** The appended record is the first candidate for its own username. */
  lemma FirstActiveAppendedUnique(repo: Repository, u: UserEntity)
    requires forall k :: 0 <= k < |repo| ==> !EqualsIgnoreCase(repo[k].username, u.username)
    requires !u.isDeleted
    ensures FirstActive(repo + [u], u.username) == Some(|repo|)
  {
    EqualsIgnoreCaseIsEquivalence(u.username, u.username, u.username);
    var repo' := repo + [u];
    assert repo'[|repo|] == u;
    assert forall k :: 0 <= k < |repo| ==> repo'[k] == repo[k];
  }
}

=== FILE: authorization.dfy ===
/** Role-based permission (User.Application/Services/AuthorizationService.cs):
    administrators may do anything, the other known roles have fixed
    allow-lists compared ignoring case, and unknown roles may do nothing. */
module AuthorizationService {
  import opened Strings
  import opened Entities

  const Vender: string := "Vender"
  const VerMisDatos: string := "VerMisDatos"
  const Almacenar: string := "Almacenar"

  /** The allow-list of a non-administrator role. */
  function AllowedActions(role: UserRole): (actions: seq<string>)
    ensures role == Cajero ==> actions == [Vender, VerMisDatos]
    ensures role == Almacenero ==> actions == [Almacenar, VerMisDatos]
    ensures role != Cajero && role != Almacenero ==> actions == []
  {
    if role == Cajero then [Vender, VerMisDatos]
    else if role == Almacenero then [Almacenar, VerMisDatos]
    else []
  }

  /** `CanPerformAction`. */
  function CanPerformAction(user: UserEntity, action: string): (allowed: bool)
    ensures user.role == Administrador ==> allowed
    ensures user.role == Cajero ==>
              (allowed <==> EqualsIgnoreCase(action, Vender) || EqualsIgnoreCase(action, VerMisDatos))
    ensures user.role == Almacenero ==>
              (allowed <==> EqualsIgnoreCase(action, Almacenar) || EqualsIgnoreCase(action, VerMisDatos))
    ensures user.role !in {Administrador, Cajero, Almacenero} ==> !allowed
  {
    if user.role == Administrador then true
    else
      var actions := AllowedActions(user.role);
      assert user.role == Cajero ==> actions[0] == Vender && actions[1] == VerMisDatos;
      assert user.role == Almacenero ==> actions[0] == Almacenar && actions[1] == VerMisDatos;
      ContainsIgnoreCase(actions, action)
  }

  /** The decision does not depend on the letter case of the action. */
  lemma CaseInsensitive(user: UserEntity, a: string, b: string)
    requires EqualsIgnoreCase(a, b)
    ensures CanPerformAction(user, a) == CanPerformAction(user, b)
  {
    forall x: string
      ensures EqualsIgnoreCase(x, a) <==> EqualsIgnoreCase(x, b)
    {
      EqualsIgnoreCaseIsEquivalence(x, a, b);
      EqualsIgnoreCaseIsEquivalence(x, b, a);
    }
  }

  /** The cashier may sell, in any spelling of the word, but not store; the
      storekeeper the other way round; both may view their own data. */
  lemma RoleExamples(user: UserEntity)
    ensures CanPerformAction(user.(role := Cajero), "vender")
    ensures !CanPerformAction(user.(role := Cajero), Almacenar)
    ensures CanPerformAction(user.(role := Almacenero), "ALMACENAR")
    ensures !CanPerformAction(user.(role := Almacenero), Vender)
    ensures CanPerformAction(user.(role := Almacenero), "vermisdatos")
  {
  }
}

=== FILE: builder.dfy ===
/** The fluent record builder (User.Infraestructure/Persistence/UserBuilder.cs).
    The builder's state is the record under construction, so every `With*`
    step is a function from record to record and `Build()` hands the record
    over unchanged. A C# `null` argument is `None`. */
module UserBuilder {
  import opened Options
  import opened Strings
  import opened Entities

  /** `s?.Trim() ?? ""`. */
  function TrimOrEmpty(s: Option<string>): (r: string)
    ensures s.None? ==> r == ""
    ensures s.Some? ==> r == Trim(s.value)
    ensures r == [] || (!IsWhiteSpace(r[0]) && !IsWhiteSpace(r[|r| - 1]))
  {
    match s
    case None => ""
    case Some(v) => Trim(v)
  }

  /** Trimmed names; the maternal surname stays null when it is null or blank. */
  function WithNames(u: UserEntity, firstName: Option<string>, lastFirstName: Option<string>,
                     lastSecondName: Option<string>): (r: UserEntity)
    ensures r.firstName == TrimOrEmpty(firstName)
    ensures r.lastFirstName == TrimOrEmpty(lastFirstName)
    ensures r.lastSecondName.None? <==> lastSecondName.None? || IsBlank(lastSecondName.value)
    ensures r.lastSecondName.Some? ==> r.lastSecondName.value == Trim(lastSecondName.value)
                                       && r.lastSecondName.value != []
    ensures r == u.(firstName := r.firstName, lastFirstName := r.lastFirstName,
                    lastSecondName := r.lastSecondName)
  {
    u.(firstName := TrimOrEmpty(firstName),
       lastFirstName := TrimOrEmpty(lastFirstName),
       lastSecondName := if lastSecondName.None? || IsBlank(lastSecondName.value) then None
                         else Some(Trim(lastSecondName.value)))
  }

  /** Trimmed contact data. */
  function WithContact(u: UserEntity, mail: Option<string>, phone: Option<string>, ci: Option<string>): (r: UserEntity)
    ensures r.mail == TrimOrEmpty(mail) && r.phone == TrimOrEmpty(phone) && r.ci == TrimOrEmpty(ci)
    ensures r == u.(mail := r.mail, phone := r.phone, ci := r.ci)
  {
    u.(mail := TrimOrEmpty(mail), phone := TrimOrEmpty(phone), ci := TrimOrEmpty(ci))
  }

  function WithRole(u: UserEntity, role: UserRole): (r: UserEntity)
    ensures r.role == role
    ensures r == u.(role := r.role)
  {
    u.(role := role)
  }

  /** The actor is both creator and last updater, the creation and update
      times are the current time, and the record is not deleted. */
  function WithAudit(u: UserEntity, actorId: int, now: Timestamp): (r: UserEntity)
    ensures r.createdBy == actorId && r.updatedBy == actorId
    ensures r.createdAt == now && r.updatedAt == now
    ensures !r.isDeleted
    ensures r == u.(createdBy := r.createdBy, updatedBy := r.updatedBy,
                    createdAt := r.createdAt, updatedAt := r.updatedAt, isDeleted := r.isDeleted)
  {
    u.(createdBy := actorId, updatedBy := actorId, createdAt := now, updatedAt := now, isDeleted := false)
  }

  function WithUsername(u: UserEntity, username: Option<string>): (r: UserEntity)
    ensures r.username == username.GetOr("")
    ensures r == u.(username := r.username)
  {
    u.(username := username.GetOr(""))
  }

  function WithPasswordHash(u: UserEntity, passwordHash: Option<string>): (r: UserEntity)
    ensures r.password == passwordHash.GetOr("")
    ensures r == u.(password := r.password)
  {
    u.(password := passwordHash.GetOr(""))
  }

  /** The steps touch disjoint fields, so their order does not matter. */
  lemma NamesAndContactCommute(u: UserEntity, f: Option<string>, l1: Option<string>, l2: Option<string>,
                               mail: Option<string>, phone: Option<string>, ci: Option<string>)
    ensures WithContact(WithNames(u, f, l1, l2), mail, phone, ci) == WithNames(WithContact(u, mail, phone, ci), f, l1, l2)
  {
  }

  /** Setting names twice keeps only the second call. */
  lemma WithNamesOverwrites(u: UserEntity, f: Option<string>, l1: Option<string>, l2: Option<string>,
                            f': Option<string>, l1': Option<string>, l2': Option<string>)
    ensures WithNames(WithNames(u, f, l1, l2), f', l1', l2') == WithNames(u, f', l1', l2')
  {
  }

  /** Building again from already-built names changes nothing: the builder's
      normalisation is idempotent. */
  lemma WithNamesIdempotent(u: UserEntity, f: Option<string>, l1: Option<string>, l2: Option<string>)
    ensures var r := WithNames(u, f, l1, l2);
            WithNames(r, Some(r.firstName), Some(r.lastFirstName), r.lastSecondName) == r
  {
    var r := WithNames(u, f, l1, l2);
    TrimIdempotent(f.GetOr(""));
    TrimIdempotent(l1.GetOr(""));
    if r.lastSecondName.Some? {
      TrimIdempotent(l2.value);
    }
  }
}

=== FILE: decimal.dfy ===
/** Decimal text of integers: `int.ToString()` for non-negative values and
    `int.Parse(string)` with .NET's default `NumberStyles.Integer`. */
module Decimal {
  import opened Options
  import Strings

  const Int32Min: int := -0x8000_0000
  const Int32Max: int := 0x7FFF_FFFF

  predicate IsDigit(c: char) {
    '0' <= c <= '9'
  }

  predicate AllDigits(s: string) {
    forall i :: 0 <= i < |s| ==> IsDigit(s[i])
  }

  function DigitChar(d: nat): (c: char)
    requires d < 10
    ensures IsDigit(c)
  {
    ('0' as int + d) as char
  }

  function DigitValue(c: char): (d: nat)
    requires IsDigit(c)
    ensures d < 10 && DigitChar(d) == c
  {
    c as int - '0' as int
  }

  function Pow10(k: nat): (p: nat)
    ensures p >= 1
  {
    if k == 0 then 1 else 10 * Pow10(k - 1)
  }

  /** The shortest decimal numeral of `n`, as `int.ToString()` prints it. */
  function NatToString(n: nat): (s: string)
    ensures |s| >= 1 && AllDigits(s)
    ensures n > 0 ==> s[0] != '0'
  {
    if n < 10 then [DigitChar(n)] else NatToString(n / 10) + [DigitChar(n % 10)]
  }

  /** The value of a numeral (leading zeros allowed). */
  function DigitsValue(s: string): nat
    requires AllDigits(s)
  {
    if |s| == 0 then 0 else 10 * DigitsValue(s[..|s| - 1]) + DigitValue(s[|s| - 1])
  }

  /** Reading back a printed number gives the number. */
  lemma {:induction false} DigitsValueOfNatToString(n: nat)
    ensures DigitsValue(NatToString(n)) == n
  {
    var s := NatToString(n);
    if n >= 10 {
      DigitsValueOfNatToString(n / 10);
      assert s[..|s| - 1] == NatToString(n / 10);
    }
  }

  /** Different numbers are printed differently. */
  lemma NatToStringInjective(m: nat, n: nat)
    requires NatToString(m) == NatToString(n)
    ensures m == n
  {
    DigitsValueOfNatToString(m);
    DigitsValueOfNatToString(n);
  }

  /** `10^k` has `k + 1` digits. */
  lemma {:induction false} NatToStringPow10(k: nat)
    ensures |NatToString(Pow10(k))| == k + 1
  {
    if k > 0 {
      NatToStringPow10(k - 1);
      assert Pow10(k) / 10 == Pow10(k - 1);
    }
  }

  /** A number below `10^k` has at most `k` digits (for `k >= 1`). */
  lemma {:induction false} NatToStringShort(n: nat, k: nat)
    requires 1 <= k && n < Pow10(k)
    ensures |NatToString(n)| <= k
  {
    if n >= 10 {
      NatToStringShort(n / 10, k - 1);
    }
  }

  /** The characters `int.Parse` skips around the number
      (`NumberStyles.AllowLeadingWhite | AllowTrailingWhite`). */
  predicate IsParseWhite(c: char) {
    ('\t' <= c <= '\r') || c == ' '
  }

  /** The NUL character, which .NET's integer parser accepts as trailing
      padding after the number and its trailing white. */
  predicate IsNul(c: char) {
    c == '\0'
  }

  /** `s` without its trailing run of NUL characters. */
  function DropTrailingNuls(s: string): (t: string)
    ensures |t| <= |s| && t == s[..|t|]
    ensures forall k :: |t| <= k < |s| ==> IsNul(s[k])
    ensures |t| == 0 || !IsNul(t[|t| - 1])
  {
    s[..Strings.KeepUntil(s, IsNul, 0, |s|)]
  }

  /** `int.Parse(s)`: optional surrounding white, an optional sign, then one or
      more ASCII digits whose value fits in 32 bits, all possibly followed by
      NUL characters. `None` stands for the `FormatException` or
      `OverflowException` the call throws otherwise. */
  function ParseInt32(s: string): (r: Option<int>)
    ensures r.Some? ==> Int32Min <= r.value <= Int32Max
    ensures r.Some? ==> exists k :: 0 <= k < |s| && IsDigit(s[k])
  {
    var u := DropTrailingNuls(s);
    var t := Strings.TrimBy(u, IsParseWhite);
    var negative := |t| > 0 && t[0] == '-';
    var body := if |t| > 0 && (t[0] == '-' || t[0] == '+') then t[1..] else t;
    if |body| == 0 || !AllDigits(body) then None
    else
      var magnitude: int := DigitsValue(body);
      var v := if negative then 0 - magnitude else magnitude;
      if Int32Min <= v <= Int32Max then
        assert IsDigit(u[Strings.LeadingRun(u, IsParseWhite) + |t| - 1]);
        Some(v)
      else None
  }

  /** Dropping trailing NULs looks only at the end of the string. */
  lemma {:induction false} KeepUntilAppendNul(s: string, j: nat)
    requires j <= |s|
    ensures Strings.KeepUntil(s + ['\0'], IsNul, 0, j) == Strings.KeepUntil(s, IsNul, 0, j)
  {
    if j > 0 {
      assert (s + ['\0'])[j - 1] == s[j - 1];
      if IsNul(s[j - 1]) {
        KeepUntilAppendNul(s, j - 1);
      }
    }
  }

  /** Appending a NUL leaves the string stripped of trailing NULs as it was. */
  lemma DropTrailingNulsAppend(s: string)
    ensures DropTrailingNuls(s + ['\0']) == DropTrailingNuls(s)
  {
    var x := s + ['\0'];
    assert Strings.KeepUntil(x, IsNul, 0, |x|) == Strings.KeepUntil(x, IsNul, 0, |s|);
    KeepUntilAppendNul(s, |s|);
    assert x[..Strings.KeepUntil(s, IsNul, 0, |s|)] == s[..Strings.KeepUntil(s, IsNul, 0, |s|)];
  }

  /** A trailing NUL never changes what a string parses to. */
  lemma TrailingNulIgnored(s: string)
    ensures ParseInt32(s + ['\0']) == ParseInt32(s)
  {
    DropTrailingNulsAppend(s);
  }

  /** `int.Parse(n.ToString()) == n` for every non-negative 32-bit `n`. */
  lemma ParseInt32OfNatToString(n: nat)
    requires n <= Int32Max
    ensures ParseInt32(NatToString(n)) == Some(n)
  {
    var s := NatToString(n);
    assert DropTrailingNuls(s) == s;
    Strings.TrimByUntouched(s, IsParseWhite);
    assert IsDigit(s[0]) && s[0] != '-' && s[0] != '+';
    DigitsValueOfNatToString(n);
    assert DigitsValue(s) == n;
  }
}

=== FILE: entities.dfy ===
/** The user record and the repository it lives in. The repository is the
    persistence collaborator of the facade, modelled as the sequence of all
    stored records (soft-deleted ones included). */
module Entities {
  import opened Options

  /** A point in time, as an opaque value supplied by the caller (`DateTime.Now`). */
  type Timestamp = int

  /** `UserRole` is a C# enum, that is, a named integer. */
  datatype UserRole = UserRole(code: int)

  const Administrador: UserRole := UserRole(0)
  const Cajero: UserRole := UserRole(1)
  const Almacenero: UserRole := UserRole(2)

  datatype UserEntity = UserEntity(
    id: int,
    username: string,
    password: string,
    firstName: string,
    lastFirstName: string,
    lastSecondName: Option<string>,
    mail: string,
    phone: string,
    ci: string,
    role: UserRole,
    hasChangedPassword: bool,
    passwordVersion: int,
    lastPasswordChangedAt: Option<Timestamp>,
    isDeleted: bool,
    createdBy: int,
    updatedBy: int,
    createdAt: Timestamp,
    updatedAt: Timestamp)

  /** `new UserEntity()`: every field at its default value. */
  const EmptyUser: UserEntity :=
    UserEntity(0, "", "", "", "", None, "", "", "", UserRole(0), false, 0, None, false, 0, 0, 0, 0)

  type Repository = seq<UserEntity>

  /** The position of the first record with identifier `id`, if any. */
  function IndexOfId(repo: Repository, id: int): (r: Option<nat>)
    ensures r.Some? ==> r.value < |repo| && repo[r.value].id == id
                        && forall k :: 0 <= k < r.value ==> repo[k].id != id
    ensures r.None? ==> forall k :: 0 <= k < |repo| ==> repo[k].id != id
  {
    if |repo| == 0 then None
    else if repo[0].id == id then Some(0)
    else match IndexOfId(repo[1..], id)
      case None => None
      case Some(k) => Some(k + 1)
  }

  /** `IUserRepository.GetById`. */
  function GetById(repo: Repository, id: int): (r: Option<UserEntity>)
    ensures r.None? <==> forall k :: 0 <= k < |repo| ==> repo[k].id != id
    ensures r.Some? ==> r.value in repo && r.value.id == id
  {
    match IndexOfId(repo, id)
    case None => None
    case Some(k) => Some(repo[k])
  }

  /** `IUserRepository.Update` (and `Delete`, which stores a record whose
      soft-delete flag the caller has already set): the stored record with the
      same identifier is replaced, and every other record is left alone. */
  function Update(repo: Repository, u: UserEntity): (r: Repository)
    ensures |r| == |repo|
    ensures forall k :: 0 <= k < |repo| ==> r[k] == (if repo[k].id == u.id then u else repo[k])
  {
    seq(|repo|, k requires 0 <= k < |repo| => if repo[k].id == u.id then u else repo[k])
  }

  /** The record read back after an update is the updated one. */
  lemma GetByIdAfterUpdate(repo: Repository, u: UserEntity)
    requires GetById(repo, u.id).Some?
    ensures GetById(Update(repo, u), u.id) == Some(u)
  {
    var k := IndexOfId(repo, u.id).value;
    var repo' := Update(repo, u);
    assert repo'[k] == u;
    assert forall j :: 0 <= j < k ==> repo'[j].id != u.id;
    assert IndexOfId(repo', u.id) == Some(k) by {
      IndexOfIdFirst(repo', u.id, k);
    }
  }

  lemma {:induction false} IndexOfIdFirst(repo: Repository, id: int, k: nat)
    requires k < |repo| && repo[k].id == id
    requires forall j :: 0 <= j < k ==> repo[j].id != id
    ensures IndexOfId(repo, id) == Some(k)
  {
    if k > 0 {
      IndexOfIdFirst(repo[1..], id, k - 1);
    }
  }

  function MaxId(repo: Repository): (m: int)
    ensures forall k :: 0 <= k < |repo| ==> repo[k].id <= m
  {
    if |repo| == 0 then 0
    else var rest := MaxId(repo[1..]); if repo[0].id > rest then repo[0].id else rest
  }

  /** `IUserRepository.Create`: the record is stored under a fresh identifier
      and returned with it. */
  function Create(repo: Repository, u: UserEntity): (r: (Repository, UserEntity))
    ensures r.1 == u.(id := r.1.id)
    ensures forall k :: 0 <= k < |repo| ==> repo[k].id != r.1.id
    ensures r.0 == repo + [r.1]
  {
    var created := u.(id := MaxId(repo) + 1);
    (repo + [created], created)
  }

  /** The usernames of the stored records, in order. */
  function Usernames(repo: Repository): (names: seq<string>)
    ensures |names| == |repo|
    ensures forall k :: 0 <= k < |repo| ==> names[k] == repo[k].username
  {
    seq(|repo|, k requires 0 <= k < |repo| => repo[k].username)
  }
}

=== FILE: facade.dfy ===
/** The user facade (User.Application/Services/UserFacade.cs): registration,
    profile update and soft delete as transitions over the repository. Each
    returns the repository after the write, or the failure that stopped it
    before anything was written. */
module UserFacade {
  import opened Options
  import opened Strings
  import opened Entities
  import opened PasswordService
  import opened UserValidator
  import opened Failures
  import opened UserFactory
  import UsernameGenerator
  import AuthenticationService

  /** The length asked of the password generator for a temporary password. */
  const TemporaryPasswordLength: int := 12

  /** Another stored record already carries this CI, ignoring case. */
  predicate CiInUse(repo: Repository, ci: string, exceptId: Option<int>) {
    exists k :: 0 <= k < |repo| && EqualsIgnoreCase(repo[k].ci, ci) && Some(repo[k].id) != exceptId
  }

  /** Another stored record with a non-blank mail already carries this mail,
      ignoring case. */
  predicate MailInUse(repo: Repository, mail: string, exceptId: Option<int>) {
    exists k :: 0 <= k < |repo| && !IsBlank(repo[k].mail) && EqualsIgnoreCase(repo[k].mail, mail)
                && Some(repo[k].id) != exceptId
  }

  /** A successful registration: the repository after the insert, the stored
      record, and the temporary password that is mailed to the user. */
  datatype Registration = Registration(repo: Repository, created: UserEntity, temporaryPassword: string)

  /** Whether the submitted names make the username generator throw. */
  predicate NameBreaksGenerator(user: UserEntity) {
    UsernameGenerator.NormalizationRejects(user.firstName, user.lastFirstName, user.lastSecondName)
  }

  /** The record `RegisterAsync` builds before checking it: the factory's
      record for the submitted data and the existing usernames, carrying the
      hash of the temporary password at version 1, not yet changed. `None`
      when the factory throws. */
  function RegistrationCandidate(repo: Repository, user: UserEntity, actorId: int, plain: string,
                                 salt: seq<byte>, now: Timestamp, c: Crypto): (r: Option<UserEntity>)
    requires Lawful(c) && |salt| == SaltSize
    ensures r.None? <==> NameBreaksGenerator(user)
    ensures r.Some? ==>
              var base := UsernameGenerator.GenerateBase(user.firstName, user.lastFirstName, user.lastSecondName);
              base.Some? && r.value.username == UsernameGenerator.EnsureUnique(base.value, Usernames(repo))
    ensures r.Some? ==> forall k :: 0 <= k < |repo| ==> !EqualsIgnoreCase(repo[k].username, r.value.username)
    ensures r.Some? ==> |r.value.username| >= 1 && UsernameGenerator.IsHandle(r.value.username)
    ensures r.Some? ==> r.value.firstName == Trim(user.firstName) && r.value.lastFirstName == Trim(user.lastFirstName)
    ensures r.Some? ==> r.value.mail == Trim(user.mail) && r.value.phone == Trim(user.phone) && r.value.ci == Trim(user.ci)
    ensures r.Some? ==> r.value.lastSecondName
                        == UserBuilder.WithNames(EmptyUser, Some(user.firstName), Some(user.lastFirstName),
                                                 user.lastSecondName).lastSecondName
    ensures r.Some? ==> r.value.role == user.role && !r.value.isDeleted
    ensures r.Some? ==> r.value.createdBy == actorId && r.value.updatedBy == actorId
                        && r.value.createdAt == now && r.value.updatedAt == now
    ensures r.Some? ==> r.value.passwordVersion == 1 && !r.value.hasChangedPassword && r.value.lastPasswordChangedAt == None
    ensures r.Some? ==> r.value.password == HashPassword(plain, salt, c)
    ensures r.Some? ==> VerifyPassword(plain, r.value.password, c) == Ok(true)
  {
    match CreateForRegister(Some(user.firstName), Some(user.lastFirstName), user.lastSecondName,
                            Some(user.mail), Some(user.phone), Some(user.ci), actorId,
                            Usernames(repo), user.role.code, now)
    case None => None
    case Some(made) =>
      assert forall k :: 0 <= k < |repo| ==> Usernames(repo)[k] == repo[k].username;
      VerifyOwnHash(plain, salt, c);
      Some(made.(password := HashPassword(plain, salt, c), hasChangedPassword := false, passwordVersion := 1))
  }

  /** The second half of `RegisterAsync`: the built record is validated,
      then its CI and mail are checked against every stored record, and only
      then is it inserted. */
  function Admit(repo: Repository, candidate: UserEntity, plain: string): (r: Result<Registration, Failure>)
    ensures !ValidUser(candidate) ==> r == Err(Validation(Validate(candidate))) && r.error.errors != []
    ensures ValidUser(candidate) && CiInUse(repo, candidate.ci, None) ==> r == Err(Domain(DuplicateCi))
    ensures (ValidUser(candidate) && !CiInUse(repo, candidate.ci, None) && MailInUse(repo, candidate.mail, None))
            ==> r == Err(Domain(DuplicateMail))
    ensures r.Ok? <==> ValidUser(candidate) && !CiInUse(repo, candidate.ci, None) && !MailInUse(repo, candidate.mail, None)
    ensures r.Ok? ==> r.value.created == candidate.(id := r.value.created.id)
                      && r.value.repo == repo + [r.value.created]
                      && (forall k :: 0 <= k < |repo| ==> repo[k].id != r.value.created.id)
                      && r.value.temporaryPassword == plain
    ensures r.Ok? ==> ValidUser(r.value.created)
    ensures r.Err? ==> r.error.Validation? || r.error == Domain(DuplicateCi) || r.error == Domain(DuplicateMail)
  {
    if !ValidUser(candidate) then Err(Validation(Validate(candidate)))
    else if CiInUse(repo, candidate.ci, None) then Err(Domain(DuplicateCi))
    else if MailInUse(repo, candidate.mail, None) then Err(Domain(DuplicateMail))
    else
      var made := Create(repo, candidate);
      assert ValidUser(made.1) by { assert made.1 == candidate.(id := made.1.id); }
      Ok(Registration(made.0, made.1, plain))
  }

  /** `RegisterAsync` from the mail check on, for a given temporary password:
      the record is built, screened and inserted. */
  function RegisterWith(repo: Repository, user: UserEntity, actorId: int, plain: string,
                        salt: seq<byte>, now: Timestamp, c: Crypto): (r: Result<Registration, Failure>)
    requires Lawful(c) && |salt| == SaltSize
    ensures NameBreaksGenerator(user) <==> r == Err(InvalidUnicode)
    ensures r.Err? ==> r.error.Validation? || r.error == Domain(DuplicateCi) || r.error == Domain(DuplicateMail)
                       || r.error == InvalidUnicode
    ensures r.Err? && r.error.Validation? ==> r.error.errors != []
    ensures var cand := RegistrationCandidate(repo, user, actorId, plain, salt, now, c);
            cand.Some? ==>
              && (!ValidUser(cand.value) ==> r == Err(Validation(Validate(cand.value))))
              && (ValidUser(cand.value) && CiInUse(repo, cand.value.ci, None) ==> r == Err(Domain(DuplicateCi)))
              && (ValidUser(cand.value) && !CiInUse(repo, cand.value.ci, None) && MailInUse(repo, cand.value.mail, None)
                  ==> r == Err(Domain(DuplicateMail)))
              && (r.Ok? <==> ValidUser(cand.value) && !CiInUse(repo, cand.value.ci, None)
                             && !MailInUse(repo, cand.value.mail, None))
              && (r.Ok? ==> r.value.created == cand.value.(id := r.value.created.id))
    ensures r.Ok? ==> r.value.repo == repo + [r.value.created]
                      && (forall k :: 0 <= k < |repo| ==> repo[k].id != r.value.created.id)
                      && !CiInUse(repo, r.value.created.ci, None) && !MailInUse(repo, r.value.created.mail, None)
    ensures r.Ok? ==> forall k :: 0 <= k < |repo| ==> !EqualsIgnoreCase(repo[k].username, r.value.created.username)
    ensures r.Ok? ==> r.value.temporaryPassword == plain
                      && r.value.created.password == HashPassword(plain, salt, c)
                      && VerifyPassword(plain, r.value.created.password, c) == Ok(true)
                      && r.value.created.passwordVersion == 1 && !r.value.created.hasChangedPassword
    ensures r.Ok? ==> ValidUser(r.value.created) && !r.value.created.isDeleted
  {
    var cand := RegistrationCandidate(repo, user, actorId, plain, salt, now, c);
    if cand.None? then Err(InvalidUnicode) else Admit(repo, cand.value, plain)
  }

  /** `RegisterAsync`. A blank mail is refused before anything else; the
      temporary password is `GenerateRandomPassword(12)` for the random draws
      `draws`. The welcome mail is sent best effort: a delivery failure is
      swallowed and never changes the outcome, so it takes no part here. */
  function Register(repo: Repository, user: UserEntity, actorId: int, draws: seq<nat>,
                    salt: seq<byte>, now: Timestamp, c: Crypto): (r: Result<Registration, Failure>)
    requires Lawful(c) && |salt| == SaltSize
    requires |draws| >= DrawsNeeded(EffectiveLength(TemporaryPasswordLength))
    ensures IsBlank(user.mail) <==> r == Err(Domain(MailRequired))
    ensures !IsBlank(user.mail) && NameBreaksGenerator(user) ==> r == Err(InvalidUnicode)
    ensures var cand := RegistrationCandidate(repo, user, actorId, RandomPassword(TemporaryPasswordLength, draws),
                                              salt, now, c);
            !IsBlank(user.mail) && cand.Some? ==>
              && (!ValidUser(cand.value) ==> r == Err(Validation(Validate(cand.value))))
              && (ValidUser(cand.value) && CiInUse(repo, cand.value.ci, None) ==> r == Err(Domain(DuplicateCi)))
              && (ValidUser(cand.value) && !CiInUse(repo, cand.value.ci, None) && MailInUse(repo, cand.value.mail, None)
                  ==> r == Err(Domain(DuplicateMail)))
              && (r.Ok? <==> ValidUser(cand.value) && !CiInUse(repo, cand.value.ci, None)
                             && !MailInUse(repo, cand.value.mail, None))
              && (r.Ok? ==> r.value.created == cand.value.(id := r.value.created.id))
    ensures r.Ok? ==> r.value.temporaryPassword == RandomPassword(TemporaryPasswordLength, draws)
                      && VerifyPassword(r.value.temporaryPassword, r.value.created.password, c) == Ok(true)
                      && r.value.repo == repo + [r.value.created]
  {
    if IsBlank(user.mail) then Err(Domain(MailRequired))
    else
      var plain := RandomPassword(TemporaryPasswordLength, draws);
      RegisterWith(repo, user, actorId, plain, salt, now, c)
  }

  /** The temporary password handed out has twelve characters and at least
      one of each character class. */
  lemma TemporaryPasswordShape(repo: Repository, user: UserEntity, actorId: int, draws: seq<nat>,
                               salt: seq<byte>, now: Timestamp, c: Crypto)
    requires Lawful(c) && |salt| == SaltSize
    requires |draws| >= DrawsNeeded(EffectiveLength(TemporaryPasswordLength))
    ensures var r := Register(repo, user, actorId, draws, salt, now, c);
            r.Ok? ==>
              var p := r.value.temporaryPassword;
              && |p| == 12
              && (exists k :: 0 <= k < |p| && IsLowerLetter(p[k]))
              && (exists k :: 0 <= k < |p| && IsUpperLetter(p[k]))
              && (exists k :: 0 <= k < |p| && Decimal.IsDigit(p[k]))
              && (exists k :: 0 <= k < |p| && IsSymbol(p[k]))
  {
    RandomPasswordProperties(TemporaryPasswordLength, draws);
  }

  /** Right after registering, the new user logs in with the temporary
      password under the generated username: no older record, deleted or not,
      carries that username. */
  lemma RegisteredUserCanLogIn(repo: Repository, user: UserEntity, actorId: int, plain: string,
                               salt: seq<byte>, now: Timestamp, c: Crypto)
    requires Lawful(c) && |salt| == SaltSize
    ensures var r := RegisterWith(repo, user, actorId, plain, salt, now, c);
            r.Ok? ==> AuthenticationService.Authenticate(r.value.repo, r.value.created.username, plain, c) == Ok(r.value.created)
  {
    var r := RegisterWith(repo, user, actorId, plain, salt, now, c);
    if r.Ok? {
      AuthenticationService.AppendedUniqueRecordLogsIn(repo, r.value.created, plain, c);
    }
  }

  /** Usernames are unique ignoring case, CIs are unique ignoring case, and
      identifiers are unique. */
  predicate UniqueUsernames(repo: Repository) {
    forall i, j :: 0 <= i < j < |repo| ==> !EqualsIgnoreCase(repo[i].username, repo[j].username)
  }

  predicate UniqueCis(repo: Repository) {
    forall i, j :: 0 <= i < j < |repo| ==> !EqualsIgnoreCase(repo[i].ci, repo[j].ci)
  }

  predicate UniqueIds(repo: Repository) {
    forall i, j :: 0 <= i < j < |repo| ==> repo[i].id != repo[j].id
  }

  /** Registration keeps all three uniqueness invariants. */
  lemma RegisterPreservesUniqueness(repo: Repository, user: UserEntity, actorId: int, plain: string,
                                    salt: seq<byte>, now: Timestamp, c: Crypto)
    requires Lawful(c) && |salt| == SaltSize
    requires UniqueUsernames(repo) && UniqueCis(repo) && UniqueIds(repo)
    ensures var r := RegisterWith(repo, user, actorId, plain, salt, now, c);
            r.Ok? ==> UniqueUsernames(r.value.repo) && UniqueCis(r.value.repo) && UniqueIds(r.value.repo)
  {
    var r := RegisterWith(repo, user, actorId, plain, salt, now, c);
    if r.Err? { return; }
    var reg := r.value;
    var repo' := reg.repo;
    var u := reg.created;
    assert repo' == repo + [u];
    assert !CiInUse(repo, u.ci, None);
    forall i, j | 0 <= i < j < |repo'|
      ensures !EqualsIgnoreCase(repo'[i].ci, repo'[j].ci)
      ensures !EqualsIgnoreCase(repo'[i].username, repo'[j].username)
      ensures repo'[i].id != repo'[j].id
    {
      assert repo'[i] == repo[i];
      if j == |repo| {
        assert repo'[j] == u;
        assert !EqualsIgnoreCase(repo[i].ci, u.ci);
      } else {
        assert repo'[j] == repo[j];
      }
    }
  }

  /** The record `UpdateAsync` writes: the submitted names, contacts and role
      copied onto the stored record, stamped with the actor and time. */
  function Edited(current: UserEntity, user: UserEntity, actorId: int, now: Timestamp): (r: UserEntity)
    // copied from the submission
    ensures r.firstName == user.firstName && r.lastFirstName == user.lastFirstName
    ensures r.lastSecondName == user.lastSecondName
    ensures r.mail == user.mail && r.phone == user.phone && r.ci == user.ci && r.role == user.role
    ensures r.updatedBy == actorId && r.updatedAt == now
    // kept from the stored record
    ensures r.id == current.id && r.username == current.username && r.password == current.password
    ensures r.passwordVersion == current.passwordVersion && r.hasChangedPassword == current.hasChangedPassword
    ensures r.lastPasswordChangedAt == current.lastPasswordChangedAt && r.isDeleted == current.isDeleted
    ensures r.createdBy == current.createdBy && r.createdAt == current.createdAt
  {
    current.(firstName := user.firstName, lastFirstName := user.lastFirstName,
             lastSecondName := user.lastSecondName, mail := user.mail, phone := user.phone,
             ci := user.ci, role := user.role, updatedBy := actorId, updatedAt := now)
  }

  /** `UpdateAsync`. The uniqueness checks skip the record's own identifier
      and run before validation. */
  function UpdateUser(repo: Repository, user: UserEntity, actorId: int, now: Timestamp): (r: Result<Repository, Failure>)
    ensures GetById(repo, user.id).None? <==> r == Err(NotFound)
    ensures GetById(repo, user.id).Some? ==>
              var u := Edited(GetById(repo, user.id).value, user, actorId, now);
              && (CiInUse(repo, u.ci, Some(u.id)) ==> r == Err(Domain(DuplicateCi)))
              && ((!CiInUse(repo, u.ci, Some(u.id)) && !IsBlank(u.mail) && MailInUse(repo, u.mail, Some(u.id)))
                  ==> r == Err(Domain(DuplicateMail)))
              && (r.Ok? <==> !CiInUse(repo, u.ci, Some(u.id))
                             && !(!IsBlank(u.mail) && MailInUse(repo, u.mail, Some(u.id)))
                             && ValidUser(u))
              && ((!CiInUse(repo, u.ci, Some(u.id)) && !(!IsBlank(u.mail) && MailInUse(repo, u.mail, Some(u.id)))
                   && !ValidUser(u)) ==> r == Err(Validation(Validate(u))))
              && (r.Ok? ==> r.value == Update(repo, u))
    ensures r.Err? && r.error.Validation? ==> r.error.errors != []
  {
    match GetById(repo, user.id)
    case None => Err(NotFound)
    case Some(current) =>
      var u := Edited(current, user, actorId, now);
      if CiInUse(repo, u.ci, Some(u.id)) then Err(Domain(DuplicateCi))
      else if !IsBlank(u.mail) && MailInUse(repo, u.mail, Some(u.id)) then Err(Domain(DuplicateMail))
      else
        if !ValidUser(u) then Err(Validation(Validate(u))) else Ok(Update(repo, u))
  }

  /** With unique identifiers, a profile update keeps CIs unique. */
  lemma UpdatePreservesUniqueCis(repo: Repository, user: UserEntity, actorId: int, now: Timestamp)
    requires UniqueCis(repo) && UniqueIds(repo)
    ensures var r := UpdateUser(repo, user, actorId, now);
            r.Ok? ==> UniqueCis(r.value) && UniqueIds(r.value)
  {
    if UpdateUser(repo, user, actorId, now).Err? { return; }
    var u := Edited(GetById(repo, user.id).value, user, actorId, now);
    var repo' := Update(repo, u);
    assert !CiInUse(repo, u.ci, Some(u.id));
    forall i, j | 0 <= i < j < |repo'|
      ensures !EqualsIgnoreCase(repo'[i].ci, repo'[j].ci)
    {
      if repo[i].id == u.id {
        assert repo[j].id != u.id && repo'[j] == repo[j];
        assert !EqualsIgnoreCase(repo[j].ci, u.ci);
        EqualsIgnoreCaseIsEquivalence(repo[j].ci, u.ci, u.ci);
      } else if repo[j].id == u.id {
        assert !EqualsIgnoreCase(repo[i].ci, u.ci);
      }
    }
  }

  /** `SoftDeleteAsync`: the stored record is flagged deleted and stamped; it
      is never erased. */
  function SoftDelete(repo: Repository, id: int, actorId: int, now: Timestamp): (r: Result<Repository, Failure>)
    ensures GetById(repo, id).None? <==> r == Err(NotFound)
    ensures r.Ok? ==> |r.value| == |repo|
    ensures r.Ok? ==> GetById(r.value, id).Some?
    ensures r.Ok? ==> var d := GetById(r.value, id).value;
                      && d.isDeleted && d.updatedBy == actorId && d.updatedAt == now
                      && d == GetById(repo, id).value.(isDeleted := true, updatedBy := actorId, updatedAt := now)
    ensures r.Ok? ==> forall k :: 0 <= k < |repo| && repo[k].id != id ==> r.value[k] == repo[k]
  {
    match GetById(repo, id)
    case None => Err(NotFound)
    case Some(current) =>
      var d := current.(isDeleted := true, updatedBy := actorId, updatedAt := now);
      GetByIdAfterUpdate(repo, d);
      Ok(Update(repo, d))
  }

  /** After a soft delete, no login resolves to the deleted identifier,
      whatever username and password are presented. */
  lemma SoftDeletedCannotLogIn(repo: Repository, id: int, actorId: int, now: Timestamp,
                               username: string, password: string, c: Crypto)
    requires Lawful(c)
    requires SoftDelete(repo, id, actorId, now).Ok?
    ensures var after := AuthenticationService.Authenticate(SoftDelete(repo, id, actorId, now).value, username, password, c);
            after.Ok? ==> after.value.id != id
  {
  }
}

=== FILE: factory.dfy ===
/** Record construction for registration
    (User.Infraestructure/Persistence/UserFactory.cs): the username comes from
    the generator, everything else goes through a fresh builder. */
module UserFactory {
  import opened Options
  import opened Entities
  import opened UserBuilder
  import UsernameGenerator

  /** `CreateForRegister`. The builder starts from `new UserEntity()`; the
      role is the integer argument cast to the enum. `None` stands for the
      `ArgumentException` the generator's normalisation step raises. */
  function CreateForRegister(firstName: Option<string>, lastFirstName: Option<string>,
                             lastSecondName: Option<string>, mail: Option<string>,
                             phone: Option<string>, ci: Option<string>, actorId: int,
                             existingUsernames: seq<string>, role: int, now: Timestamp): (r: Option<UserEntity>)
    ensures r.None? <==> UsernameGenerator.NormalizationRejects(firstName.GetOr(""), lastFirstName.GetOr(""), lastSecondName)
    ensures r.Some? ==>
              var base := UsernameGenerator.GenerateBase(firstName.GetOr(""), lastFirstName.GetOr(""), lastSecondName);
              base.Some? && r.value.username == UsernameGenerator.EnsureUnique(base.value, existingUsernames)
    ensures r.Some? ==> !UsernameGenerator.Collides(existingUsernames, r.value.username)
    ensures r.Some? ==> |r.value.username| >= 1 && UsernameGenerator.IsHandle(r.value.username)
    ensures r.Some? ==> r.value.firstName == TrimOrEmpty(firstName) && r.value.lastFirstName == TrimOrEmpty(lastFirstName)
    ensures r.Some? ==> r.value.lastSecondName == WithNames(EmptyUser, firstName, lastFirstName, lastSecondName).lastSecondName
    ensures r.Some? ==> r.value.mail == TrimOrEmpty(mail) && r.value.phone == TrimOrEmpty(phone) && r.value.ci == TrimOrEmpty(ci)
    ensures r.Some? ==> r.value.role == UserRole(role)
    ensures r.Some? ==> r.value.createdBy == actorId && r.value.updatedBy == actorId
                        && r.value.createdAt == now && r.value.updatedAt == now
    ensures r.Some? ==> !r.value.isDeleted
    // the factory sets no credential: those fields keep their defaults
    ensures r.Some? ==> r.value.password == EmptyUser.password && r.value.passwordVersion == EmptyUser.passwordVersion
    ensures r.Some? ==> r.value.hasChangedPassword == EmptyUser.hasChangedPassword
    ensures r.Some? ==> r.value.lastPasswordChangedAt == EmptyUser.lastPasswordChangedAt
    ensures r.Some? ==> r.value.id == EmptyUser.id
  {
    match UsernameGenerator.GenerateBase(firstName.GetOr(""), lastFirstName.GetOr(""), lastSecondName)
    case None => None
    case Some(baseUsername) =>
      var unique := UsernameGenerator.EnsureUnique(baseUsername, existingUsernames);
      var b := WithNames(EmptyUser, firstName, lastFirstName, lastSecondName);
      var b := WithContact(b, mail, phone, ci);
      var b := WithRole(b, UserRole(role));
      var b := WithAudit(b, actorId, now);
      var b := WithUsername(b, Some(unique));
      Some(b)
  }
}

=== FILE: failures.dfy ===
/** The outcomes the services report instead of throwing: `NotFoundException`,
    `DomainException` (one case per message), `ValidationException` with its
    field-keyed errors, an exception escaping from password verification, and
    the `ArgumentException` Unicode normalisation throws on a lone surrogate or on U+FFFE. */
module Failures {
  import UserValidator
  import PasswordService

  datatype DomainError =
    | MailRequired              // "El correo es obligatorio."
    | DuplicateCi               // "El CI ya existe."
    | DuplicateMail             // "El correo ya existe."
    | CurrentPasswordIncorrect  // "La contraseña actual no es correcta."
    | NewPasswordTooShort       // "... al menos 8 caracteres."
    | NewPasswordNeedsDigit     // "... al menos un número."
    | NewPasswordNeedsUpper     // "... al menos una letra mayúscula."
    | NewPasswordNeedsLower     // "... al menos una letra minúscula."
    | NewPasswordNeedsSymbol    // "... al menos un símbolo."
    | NewPasswordUnchanged      // "La nueva contraseña no puede ser igual a la anterior."
    | InvalidCredentials        // "Credenciales inválidas."

  datatype Failure =
    | NotFound
    | Domain(error: DomainError)
    | Validation(errors: seq<UserValidator.FieldError>)
    | Unexpected(cause: PasswordService.VerifyFailure)
    | InvalidUnicode
}

=== FILE: options.dfy ===
/** Option and Result values shared by every module of the model. A C# `null`
    becomes `None`; a thrown exception becomes `Err`. */
module Options {

  datatype Option<+T> = None | Some(value: T) {
    function GetOr(default: T): T {
      match this
      case Some(v) => v
      case None => default
    }
  }

  datatype Result<+T, +E> = Ok(value: T) | Err(error: E)
}

=== FILE: password.dfy ===
/** Password material (User.Application/Services/PasswordService.cs): the
    `PBKDF2|iterations|salt|key` wire format, its verification with a
    constant-time comparison, and random temporary passwords. */
module PasswordService {
  import opened Options
  import opened Strings
  import opened Decimal

  type byte = bv8

  const Tag: string := "PBKDF2"
  const Pbkdf2Iterations: nat := 100_000
  const SaltSize: nat := 16
  const KeySize: nat := 32

  /** The cryptographic primitives, as functions the model does not interpret:
      PBKDF2 with HMAC-SHA-256 (section 5.2 of RFC 8018) from password, salt,
      iteration count and output length, and base64 (section 4 of RFC 4648).
      `fromBase64` returns `None` where `Convert.FromBase64String` throws. */
  datatype Crypto = Crypto(
    pbkdf2: (string, seq<byte>, int, nat) -> seq<byte>,
    toBase64: seq<byte> -> string,
    fromBase64: string -> Option<seq<byte>>)

  /** What the model relies on from the primitives: PBKDF2 returns as many
      bytes as asked for, base64 decodes what it encodes, and the base64
      alphabet has no `|`. */
  ghost predicate Lawful(c: Crypto) {
    && (forall p, s, it, n :: |c.pbkdf2(p, s, it, n)| == n)
    && (forall b :: c.fromBase64(c.toBase64(b)) == Some(b))
    && (forall b :: '|' !in c.toBase64(b))
  }

  /** Why verification could not reach a yes/no answer: the exception the
      source lets escape from `int.Parse`, `Convert.FromBase64String` or PBKDF2. */
  datatype VerifyFailure =
    | MalformedIterations
    | MalformedSalt
    | MalformedKey
    | NonPositiveIterations

  /** The stored form of a password: four `|`-separated fields. The salt is the
      16 random bytes the source draws from `RandomNumberGenerator`. */
  function HashPassword(password: string, salt: seq<byte>, c: Crypto): (stored: string)
    requires Lawful(c) && |salt| == SaltSize
    ensures Split(stored, '|') ==
              [Tag, NatToString(Pbkdf2Iterations), c.toBase64(salt),
               c.toBase64(c.pbkdf2(password, salt, Pbkdf2Iterations, KeySize))]
  {
    var key := c.pbkdf2(password, salt, Pbkdf2Iterations, KeySize);
    var stored := Tag + "|" + NatToString(Pbkdf2Iterations) + "|" + c.toBase64(salt) + "|" + c.toBase64(key);
    var fields := [Tag, NatToString(Pbkdf2Iterations), c.toBase64(salt), c.toBase64(key)];
    assert Join(fields[3..], '|') == c.toBase64(key);
    assert Join(fields[2..], '|') == c.toBase64(salt) + "|" + c.toBase64(key);
    assert Join(fields[1..], '|') == NatToString(Pbkdf2Iterations) + "|" + c.toBase64(salt) + "|" + c.toBase64(key);
    assert stored == Join(fields, '|');
    SplitJoin(fields, '|');
    stored
  }

  /** The accumulated difference of the first `n` byte pairs:
      `diff |= actual[i] ^ expected[i]` for every `i < n`. */
  function DiffUpTo(a: seq<byte>, b: seq<byte>, n: nat): byte
    requires n <= |a| == |b|
  {
    if n == 0 then 0 else DiffUpTo(a, b, n - 1) | (a[n - 1] ^ b[n - 1])
  }

  /** The accumulated difference is zero exactly when the prefixes agree. */
  lemma {:induction false} DiffUpToZero(a: seq<byte>, b: seq<byte>, n: nat)
    requires n <= |a| == |b|
    ensures DiffUpTo(a, b, n) == 0 <==> a[..n] == b[..n]
  {
    if n > 0 {
      DiffUpToZero(a, b, n - 1);
      assert a[..n] == a[..n - 1] + [a[n - 1]];
      assert b[..n] == b[..n - 1] + [b[n - 1]];
      var d := DiffUpTo(a, b, n - 1);
      var x := a[n - 1] ^ b[n - 1];
      assert (d | x) == 0 <==> d == 0 && x == 0;
      assert x == 0 <==> a[n - 1] == b[n - 1];
    }
  }

  /** The comparison loop of the source: every index is visited and folded
      into `diff`, with no early exit, and the keys match iff `diff` ends at 0. */
  method FixedTimeEquals(actual: seq<byte>, expected: seq<byte>) returns (equal: bool)
    requires |actual| == |expected|
    ensures equal <==> actual == expected
    ensures equal <==> DiffUpTo(actual, expected, |actual|) == 0
  {
    var diff: byte := 0;
    var i := 0;
    while i < |actual|
      invariant 0 <= i <= |actual|
      invariant diff == DiffUpTo(actual, expected, i)
    {
      diff := diff | (actual[i] ^ expected[i]);
      i := i + 1;
    }
    DiffUpToZero(actual, expected, |actual|);
    assert actual[..|actual|] == actual && expected[..|expected|] == expected;
    equal := diff == 0;
  }

  /** Whether, and how, a stored value with the right shape and tag fails to
      parse, in the order the source parses its fields. */
  function StoredFailure(stored: string, c: Crypto): (f: Option<VerifyFailure>)
  {
    var parts := Split(stored, '|');
    if |parts| != 4 || parts[0] != Tag then None
    else if ParseInt32(parts[1]).None? then Some(MalformedIterations)
    else if c.fromBase64(parts[2]).None? then Some(MalformedSalt)
    else if c.fromBase64(parts[3]).None? then Some(MalformedKey)
    else if ParseInt32(parts[1]).value <= 0 then Some(NonPositiveIterations)
    else None
  }

  /** `VerifyPassword`: wrong shape or tag is a plain `false`; a field that does
      not parse, or a non-positive iteration count, is an error outcome (the
      source throws); otherwise the key is derived again with the stored
      iteration count and salt and compared with the stored key. */
  function VerifyPassword(password: string, stored: string, c: Crypto): (r: Result<bool, VerifyFailure>)
    requires Lawful(c)
    ensures var parts := Split(stored, '|');
            (|parts| != 4 || parts[0] != Tag) ==> r == Ok(false)
    ensures r == Ok(true) <==>
              var parts := Split(stored, '|');
              && |parts| == 4 && parts[0] == Tag
              && ParseInt32(parts[1]).Some? && ParseInt32(parts[1]).value > 0
              && c.fromBase64(parts[2]).Some? && c.fromBase64(parts[3]).Some?
              && c.pbkdf2(password, c.fromBase64(parts[2]).value, ParseInt32(parts[1]).value,
                          |c.fromBase64(parts[3]).value|) == c.fromBase64(parts[3]).value
    ensures r.Err? <==> StoredFailure(stored, c).Some?
    ensures r.Err? ==> r.error == StoredFailure(stored, c).value
  {
    var parts := Split(stored, '|');
    if |parts| != 4 || parts[0] != Tag then Ok(false)
    else match (ParseInt32(parts[1]), c.fromBase64(parts[2]), c.fromBase64(parts[3]))
      case (None, _, _) => Err(MalformedIterations)
      case (_, None, _) => Err(MalformedSalt)
      case (_, _, None) => Err(MalformedKey)
      case (Some(iterations), Some(salt), Some(expected)) =>
        if iterations <= 0 then Err(NonPositiveIterations)
        else
          var actual := c.pbkdf2(password, salt, iterations, |expected|);
          if |actual| != |expected| then Ok(false)
          else
            DiffUpToZero(actual, expected, |actual|);
            assert actual[..|actual|] == actual && expected[..|expected|] == expected;
            Ok(DiffUpTo(actual, expected, |actual|) == 0)
  }

  /** Verification against a freshly made hash never fails to parse, and
      answers whether the password derives the same key as the stored one. */
  lemma VerifyHashed(password: string, original: string, salt: seq<byte>, c: Crypto)
    requires Lawful(c) && |salt| == SaltSize
    ensures VerifyPassword(password, HashPassword(original, salt, c), c)
            == Ok(c.pbkdf2(password, salt, Pbkdf2Iterations, KeySize)
                  == c.pbkdf2(original, salt, Pbkdf2Iterations, KeySize))
  {
    var stored := HashPassword(original, salt, c);
    var parts := Split(stored, '|');
    ParseInt32OfNatToString(Pbkdf2Iterations);
    var key := c.pbkdf2(original, salt, Pbkdf2Iterations, KeySize);
    assert c.fromBase64(parts[2]) == Some(salt);
    assert c.fromBase64(parts[3]) == Some(key);
    assert |key| == KeySize;
  }

  /** Round trip: a password verifies against its own hash. */
  lemma VerifyOwnHash(password: string, salt: seq<byte>, c: Crypto)
    requires Lawful(c) && |salt| == SaltSize
    ensures VerifyPassword(password, HashPassword(password, salt, c), c) == Ok(true)
  {
    VerifyHashed(password, password, salt, c);
  }

  /** A different password is rejected exactly when PBKDF2 tells the two apart
      under the stored salt. */
  lemma VerifyOtherPassword(password: string, other: string, salt: seq<byte>, c: Crypto)
    requires Lawful(c) && |salt| == SaltSize
    requires c.pbkdf2(other, salt, Pbkdf2Iterations, KeySize) != c.pbkdf2(password, salt, Pbkdf2Iterations, KeySize)
    ensures VerifyPassword(other, HashPassword(password, salt, c), c) == Ok(false)
  {
    VerifyHashed(other, password, salt, c);
  }

  /** Whether verification fails to reach an answer depends on the stored
      value only, never on the password presented. */
  lemma VerifyFailureIndependentOfPassword(p: string, q: string, stored: string, c: Crypto)
    requires Lawful(c)
    ensures VerifyPassword(p, stored, c).Err? <==> VerifyPassword(q, stored, c).Err?
  {
  }

  // ---------------------------------------------------------------------
  // GenerateRandomPassword

  /** "abcdefghijklmnopqrstuvwxyz", "ABCDEFGHIJKLMNOPQRSTUVWXYZ" and "0123456789". */
  const Lowers: string := seq(26, i requires 0 <= i < 26 => ('a' as int + i) as char)
  const Uppers: string := seq(26, i requires 0 <= i < 26 => ('A' as int + i) as char)
  const Digits: string := seq(10, i requires 0 <= i < 10 => ('0' as int + i) as char)
  const Symbols: string := "!@#$%^&*_-"
  const AllChars: string := Lowers + Uppers + Digits + Symbols
  const MinLength: nat := 8

  predicate IsLowerLetter(c: char) { 'a' <= c <= 'z' }
  predicate IsUpperLetter(c: char) { 'A' <= c <= 'Z' }
  predicate IsSymbol(c: char) { c in Symbols }

  /** The union of the four classes. */
  predicate IsPasswordChar(c: char) {
    IsLowerLetter(c) || IsUpperLetter(c) || IsDigit(c) || IsSymbol(c)
  }

  lemma CharacterClasses(k: nat)
    ensures k < |Lowers| ==> IsLowerLetter(Lowers[k])
    ensures k < |Uppers| ==> IsUpperLetter(Uppers[k])
    ensures k < |Digits| ==> IsDigit(Digits[k])
    ensures k < |AllChars| ==> IsPasswordChar(AllChars[k])
  {
  }

  /** The length actually produced: at least 8, whatever was asked for. */
  function EffectiveLength(length: int): (n: nat)
    ensures n >= MinLength && n >= length
    ensures length >= MinLength ==> n == length
  {
    if length < MinLength then MinLength else length
  }

  /** The number of random draws a password of length `n` consumes: one per
      character and one per shuffle step. */
  function DrawsNeeded(n: nat): nat
    requires n >= 1
  {
    n + (n - 1)
  }

  /** `chars[RandomNumberGenerator.GetInt32(chars.Length)]`. A random draw is
      modelled as an arbitrary natural number reduced into `[0, bound)`, so
      quantifying over all draw sequences covers every outcome of the source. */
  function Pick(chars: string, draw: nat): char
    requires |chars| > 0
  {
    chars[draw % |chars|]
  }

  /** The outcomes of a pick are exactly the characters of the set: every
      draw yields one of them, and each of them is yielded by the draw equal
      to its position. */
  lemma PickOutcomes(chars: string)
    requires |chars| > 0
    ensures forall draw: nat :: Pick(chars, draw) in chars
    ensures forall k :: 0 <= k < |chars| ==> Pick(chars, k) == chars[k]
  {
  }

  /** The list before the shuffle: a lowercase letter, an uppercase letter, a
      digit and a symbol, then characters of all four classes until the length
      is reached. Character `k` is made from draw `k`. */
  function Unshuffled(n: nat, draws: seq<nat>): (s: seq<char>)
    requires 4 <= n <= |draws|
    ensures |s| == n
  {
    seq(n, k requires 0 <= k < n =>
      if k == 0 then Pick(Lowers, draws[0])
      else if k == 1 then Pick(Uppers, draws[1])
      else if k == 2 then Pick(Digits, draws[2])
      else if k == 3 then Pick(Symbols, draws[3])
      else Pick(AllChars, draws[k]))
  }

  /** The unshuffled list starts with one character of each class, and every
      character belongs to one of them. */
  lemma UnshuffledClasses(n: nat, draws: seq<nat>)
    requires 4 <= n <= |draws|
    ensures var s := Unshuffled(n, draws);
            IsLowerLetter(s[0]) && IsUpperLetter(s[1]) && IsDigit(s[2]) && IsSymbol(s[3])
    ensures var s := Unshuffled(n, draws);
            forall k :: 0 <= k < n ==> IsPasswordChar(s[k])
  {
    var s := Unshuffled(n, draws);
    CharacterClasses(draws[0] % 26);
    CharacterClasses(draws[1] % 26);
    CharacterClasses(draws[2] % 10);
    assert IsSymbol(s[3]) by { assert s[3] == Symbols[draws[3] % |Symbols|]; }
    forall k | 0 <= k < n
      ensures IsPasswordChar(s[k])
    {
      if k >= 4 {
        CharacterClasses(draws[k] % |AllChars|);
      }
    }
  }

  function Swap(s: seq<char>, i: nat, j: nat): (t: seq<char>)
    requires i < |s| && j < |s|
  {
    s[i := s[j]][j := s[i]]
  }

  /** The Fisher-Yates steps `i, i - 1, ..., 1`: step `i` swaps position `i`
      with a position `j <= i` chosen by draw `next`. */
  function ShuffleDown(s: seq<char>, i: nat, draws: seq<nat>, next: nat): seq<char>
    requires i < |s| && next + i <= |draws|
    decreases i
  {
    if i == 0 then s
    else ShuffleDown(Swap(s, i, draws[next] % (i + 1)), i - 1, draws, next + 1)
  }

  /** The password `GenerateRandomPassword(length)` returns for the random draws `draws`. */
  function RandomPassword(length: int, draws: seq<nat>): (r: string)
    requires |draws| >= DrawsNeeded(EffectiveLength(length))
  {
    var n := EffectiveLength(length);
    ShuffleDown(Unshuffled(n, draws), n - 1, draws, n)
  }

  lemma SwapPermutes(s: seq<char>, i: nat, j: nat)
    requires i < |s| && j < |s|
    ensures multiset(Swap(s, i, j)) == multiset(s)
  {
  }

  /** The shuffle only exchanges positions, so it permutes its input. */
  lemma {:induction false} ShuffleDownPermutes(s: seq<char>, i: nat, draws: seq<nat>, next: nat)
    requires i < |s| && next + i <= |draws|
    ensures multiset(ShuffleDown(s, i, draws, next)) == multiset(s)
    ensures |ShuffleDown(s, i, draws, next)| == |s|
    decreases i
  {
    if i > 0 {
      var j := draws[next] % (i + 1);
      SwapPermutes(s, i, j);
      ShuffleDownPermutes(Swap(s, i, j), i - 1, draws, next + 1);
    }
  }

  /** The random password has length `max(length, 8)`, is a permutation of the
      unshuffled list, contains a character of each of the four classes and
      nothing outside them. */
  lemma RandomPasswordProperties(length: int, draws: seq<nat>)
    requires |draws| >= DrawsNeeded(EffectiveLength(length))
    ensures var r := RandomPassword(length, draws);
            && |r| == EffectiveLength(length)
            && multiset(r) == multiset(Unshuffled(EffectiveLength(length), draws))
            && (exists k :: 0 <= k < |r| && IsLowerLetter(r[k]))
            && (exists k :: 0 <= k < |r| && IsUpperLetter(r[k]))
            && (exists k :: 0 <= k < |r| && IsDigit(r[k]))
            && (exists k :: 0 <= k < |r| && IsSymbol(r[k]))
            && (forall k :: 0 <= k < |r| ==> IsPasswordChar(r[k]))
  {
    var n := EffectiveLength(length);
    var u := Unshuffled(n, draws);
    UnshuffledClasses(n, draws);
    ShuffleDownPermutes(u, n - 1, draws, n);
    PermutationKeepsClasses(u, RandomPassword(length, draws));
  }

  /** Any rearrangement of a list with a character of each class and nothing
      outside them has the same two properties. */
  lemma PermutationKeepsClasses(u: seq<char>, r: seq<char>)
    requires multiset(r) == multiset(u) && |u| >= 4
    requires IsLowerLetter(u[0]) && IsUpperLetter(u[1]) && IsDigit(u[2]) && IsSymbol(u[3])
    requires forall k :: 0 <= k < |u| ==> IsPasswordChar(u[k])
    ensures exists k :: 0 <= k < |r| && IsLowerLetter(r[k])
    ensures exists k :: 0 <= k < |r| && IsUpperLetter(r[k])
    ensures exists k :: 0 <= k < |r| && IsDigit(r[k])
    ensures exists k :: 0 <= k < |r| && IsSymbol(r[k])
    ensures forall k :: 0 <= k < |r| ==> IsPasswordChar(r[k])
  {
    forall x | x in multiset(u)
      ensures x in r
    {
      assert x in multiset(r);
    }
    assert u[0] in multiset(u) && u[1] in multiset(u) && u[2] in multiset(u) && u[3] in multiset(u);
    forall k | 0 <= k < |r|
      ensures IsPasswordChar(r[k])
    {
      assert r[k] in multiset(r);
      assert r[k] in u;
    }
  }

  /** `GenerateRandomPassword`: the source's steps, with the random source
      replaced by the sequence `draws` (one draw per `GetInt32` call). */
  method GenerateRandomPassword(length: int, draws: seq<nat>) returns (password: string)
    requires |draws| >= DrawsNeeded(EffectiveLength(length))
    ensures |password| == EffectiveLength(length)
    ensures password == RandomPassword(length, draws)
  {
    var n := EffectiveLength(length);
    var required := FillRequired(n, draws);
    password := ShuffleInPlace(required, draws);
  }

  /** The first half of `GenerateRandomPassword`: one character of each class,
      then characters from the whole alphabet up to length `n`. */
  method FillRequired(n: nat, draws: seq<nat>) returns (required: seq<char>)
    requires 4 <= n <= |draws|
    ensures required == Unshuffled(n, draws)
  {
    required := [Pick(Lowers, draws[0]), Pick(Uppers, draws[1]), Pick(Digits, draws[2]), Pick(Symbols, draws[3])];
    ghost var u := Unshuffled(n, draws);
    assert required == u[..4];
    while |required| < n
      invariant 4 <= |required| <= n
      invariant required == u[..|required|]
    {
      assert u[..|required| + 1] == u[..|required|] + [u[|required|]];
      required := required + [Pick(AllChars, draws[|required|])];
    }
  }

  /** The second half: the Fisher-Yates pass from the last position down,
      consuming the draws after the first `|s|`. */
  method ShuffleInPlace(s: seq<char>, draws: seq<nat>) returns (r: seq<char>)
    requires 1 <= |s| && |s| + (|s| - 1) <= |draws|
    ensures r == ShuffleDown(s, |s| - 1, draws, |s|)
    ensures |r| == |s|
  {
    r := s;
    var n := |s|;
    var next := n;
    var i := n - 1;
    while i > 0
      invariant 0 <= i < n == |r|
      invariant next == n + (n - 1 - i)
      invariant ShuffleDown(r, i, draws, next) == ShuffleDown(s, n - 1, draws, n)
    {
      var j := draws[next] % (i + 1);
      assert ShuffleDown(r, i, draws, next) == ShuffleDown(Swap(r, i, j), i - 1, draws, next + 1);
      r := r[i := r[j]][j := r[i]];
      next := next + 1;
      i := i - 1;
    }
  }
}

=== FILE: password_change.dfy ===
/** The change-password transition (User.Application/Services/UserPasswordService.cs):
    one record, checked in a fixed order, each check short-circuiting with its
    own rejection; on success the credential is replaced and versioned. */
module UserPasswordService {
  import opened Options
  import opened Strings
  import opened Decimal
  import opened Entities
  import opened PasswordService
  import opened Failures

  const MinPasswordLength: nat := 8

  /** `\d`, `[A-Z]`, `[a-z]`. */
  predicate HasDigit(s: string) { exists i :: 0 <= i < |s| && IsDigit(s[i]) }
  predicate HasUpper(s: string) { exists i :: 0 <= i < |s| && IsUpperLetter(s[i]) }
  predicate HasLower(s: string) { exists i :: 0 <= i < |s| && IsLowerLetter(s[i]) }

  /** A regular-expression word character: ASCII letters, digits and `_`;
      other characters of the Basic Multilingual Plane are counted as word
      characters. A character beyond it is matched as two surrogate code
      units, and a surrogate is never a word character. */
  predicate IsWordChar(c: char) {
    IsLowerLetter(c) || IsUpperLetter(c) || IsDigit(c) || c == '_' || (0x7F < c as int <= 0xFFFF)
  }

  /** `[\W_]`: a non-word character or the underscore. */
  predicate HasSymbol(s: string) { exists i :: 0 <= i < |s| && (!IsWordChar(s[i]) || s[i] == '_') }

  /** The rules on the new password alone, in the source's order; the first
      one broken is reported. */
  function NewPasswordRule(p: string): (r: Option<DomainError>)
    ensures r.None? <==> !IsBlank(p) && Utf16Length(p) >= MinPasswordLength && HasDigit(p) && HasUpper(p) && HasLower(p) && HasSymbol(p)
    ensures r == Some(NewPasswordTooShort) <==> IsBlank(p) || Utf16Length(p) < MinPasswordLength
    ensures r == Some(NewPasswordNeedsDigit) ==> !IsBlank(p) && Utf16Length(p) >= MinPasswordLength && !HasDigit(p)
    ensures r == Some(NewPasswordNeedsUpper) ==> !IsBlank(p) && Utf16Length(p) >= MinPasswordLength && HasDigit(p) && !HasUpper(p)
    ensures r == Some(NewPasswordNeedsLower) ==> !IsBlank(p) && Utf16Length(p) >= MinPasswordLength && HasDigit(p) && HasUpper(p) && !HasLower(p)
    ensures r == Some(NewPasswordNeedsSymbol) ==> !IsBlank(p) && Utf16Length(p) >= MinPasswordLength && HasDigit(p) && HasUpper(p) && HasLower(p) && !HasSymbol(p)
    ensures r.Some? ==> r.value in {NewPasswordTooShort, NewPasswordNeedsDigit, NewPasswordNeedsUpper, NewPasswordNeedsLower, NewPasswordNeedsSymbol}
  {
    if IsBlank(p) || Utf16Length(p) < MinPasswordLength then Some(NewPasswordTooShort)
    else if !HasDigit(p) then Some(NewPasswordNeedsDigit)
    else if !HasUpper(p) then Some(NewPasswordNeedsUpper)
    else if !HasLower(p) then Some(NewPasswordNeedsLower)
    else if !HasSymbol(p) then Some(NewPasswordNeedsSymbol)
    else None
  }

  /** The length rule counts UTF-16 code units: six characters, two of them
      outside the Basic Multilingual Plane, are long enough. */
  lemma NewPasswordLengthInCodeUnits()
    ensures NewPasswordRule("Aa1!\U{1F600}\U{1F600}") == None
  {
    var p := "Aa1!\U{1F600}\U{1F600}";
    assert Utf16Length(p) == 8;
    assert IsDigit(p[2]) && IsUpperLetter(p[0]) && IsLowerLetter(p[1]) && !IsWordChar(p[3]);
  }

  /** The record after a successful change: new hash, flag set, version bumped,
      change and update times stamped; nothing else is touched. */
  function WithNewPassword(u: UserEntity, newPassword: string, salt: seq<byte>, now: Timestamp, c: Crypto): (r: UserEntity)
    requires Lawful(c) && |salt| == SaltSize
    ensures r.passwordVersion == u.passwordVersion + 1
    ensures r.hasChangedPassword
    ensures r.password == HashPassword(newPassword, salt, c)
    ensures VerifyPassword(newPassword, r.password, c) == Ok(true)
    ensures r.lastPasswordChangedAt == Some(now) && r.updatedAt == now
    ensures r == u.(password := r.password, hasChangedPassword := r.hasChangedPassword,
                    passwordVersion := r.passwordVersion, lastPasswordChangedAt := r.lastPasswordChangedAt,
                    updatedAt := r.updatedAt)
  {
    VerifyOwnHash(newPassword, salt, c);
    u.(password := HashPassword(newPassword, salt, c),
       hasChangedPassword := true,
       passwordVersion := u.passwordVersion + 1,
       lastPasswordChangedAt := Some(now),
       updatedAt := now)
  }

  /** `ChangePasswordAsync`, returning the repository after the update. A
      rejection carries no repository: nothing is written. */
  function ChangePassword(repo: Repository, userId: int, currentPassword: string, newPassword: string,
                          salt: seq<byte>, now: Timestamp, c: Crypto): (r: Result<Repository, Failure>)
    requires Lawful(c) && |salt| == SaltSize
    ensures GetById(repo, userId).None? <==> r == Err(NotFound)
    ensures r.Ok? <==>
              && GetById(repo, userId).Some?
              && VerifyPassword(currentPassword, GetById(repo, userId).value.password, c) == Ok(true)
              && NewPasswordRule(newPassword).None?
              && VerifyPassword(newPassword, GetById(repo, userId).value.password, c) == Ok(false)
    ensures r.Ok? ==> r.value == Update(repo, WithNewPassword(GetById(repo, userId).value, newPassword, salt, now, c))
    ensures GetById(repo, userId).Some?
            && VerifyPassword(currentPassword, GetById(repo, userId).value.password, c).Err? ==>
              r == Err(Unexpected(VerifyPassword(currentPassword, GetById(repo, userId).value.password, c).error))
    ensures GetById(repo, userId).Some?
            && VerifyPassword(currentPassword, GetById(repo, userId).value.password, c) == Ok(false) ==>
              r == Err(Domain(CurrentPasswordIncorrect))
  {
    match GetById(repo, userId)
    case None => Err(NotFound)
    case Some(u) =>
      match VerifyPassword(currentPassword, u.password, c)
      case Err(e) => Err(Unexpected(e))
      case Ok(false) => Err(Domain(CurrentPasswordIncorrect))
      case Ok(true) =>
        match NewPasswordRule(newPassword)
        case Some(e) => Err(Domain(e))
        case None =>
          match VerifyPassword(newPassword, u.password, c)
          case Err(e) => Err(Unexpected(e))
          case Ok(true) => Err(Domain(NewPasswordUnchanged))
          case Ok(false) => Ok(Update(repo, WithNewPassword(u, newPassword, salt, now, c)))
  }

  /** A wrong current password is reported before any rule on the new one is
      looked at: the outcome is the same whatever the new password is. */
  lemma WrongCurrentPasswordFirst(repo: Repository, userId: int, currentPassword: string,
                                  newPassword: string, otherNewPassword: string,
                                  salt: seq<byte>, now: Timestamp, c: Crypto)
    requires Lawful(c) && |salt| == SaltSize
    requires GetById(repo, userId).Some?
    requires VerifyPassword(currentPassword, GetById(repo, userId).value.password, c) == Ok(false)
    ensures ChangePassword(repo, userId, currentPassword, newPassword, salt, now, c) == Err(Domain(CurrentPasswordIncorrect))
    ensures ChangePassword(repo, userId, currentPassword, newPassword, salt, now, c)
            == ChangePassword(repo, userId, currentPassword, otherNewPassword, salt, now, c)
  {
  }

  /** Once the current password is accepted, the new-password rules decide in
      their fixed order; then a new password the stored hash already accepts
      is refused, which covers one equal to the current password. */
  lemma NewPasswordRulesInOrder(repo: Repository, userId: int, currentPassword: string, newPassword: string,
                                salt: seq<byte>, now: Timestamp, c: Crypto)
    requires Lawful(c) && |salt| == SaltSize
    ensures var found := GetById(repo, userId);
            (found.Some? && VerifyPassword(currentPassword, found.value.password, c) == Ok(true)) ==>
            && (NewPasswordRule(newPassword).Some? ==>
                  ChangePassword(repo, userId, currentPassword, newPassword, salt, now, c)
                  == Err(Domain(NewPasswordRule(newPassword).value)))
            && (NewPasswordRule(newPassword).None? && VerifyPassword(newPassword, found.value.password, c) == Ok(true) ==>
                  ChangePassword(repo, userId, currentPassword, newPassword, salt, now, c)
                  == Err(Domain(NewPasswordUnchanged)))
            && (NewPasswordRule(newPassword).None? && newPassword == currentPassword ==>
                  ChangePassword(repo, userId, currentPassword, newPassword, salt, now, c)
                  == Err(Domain(NewPasswordUnchanged)))
  {
  }

  /** Two successful changes raise the version by exactly two and leave the
      "changed" flag set; the latest password is the one that verifies. */
  lemma TwoChanges(repo: Repository, userId: int, p0: string, p1: string, p2: string,
                   salt1: seq<byte>, salt2: seq<byte>, t1: Timestamp, t2: Timestamp, c: Crypto)
    requires Lawful(c) && |salt1| == SaltSize && |salt2| == SaltSize
    ensures var first := ChangePassword(repo, userId, p0, p1, salt1, t1, c);
            first.Ok? ==>
              var second := ChangePassword(first.value, userId, p1, p2, salt2, t2, c);
              second.Ok? ==>
                && GetById(second.value, userId).Some?
                && GetById(second.value, userId).value.passwordVersion == GetById(repo, userId).value.passwordVersion + 2
                && GetById(second.value, userId).value.hasChangedPassword
                && VerifyPassword(p2, GetById(second.value, userId).value.password, c) == Ok(true)
  {
    if ChangePassword(repo, userId, p0, p1, salt1, t1, c).Err? { return; }
    var u0 := GetById(repo, userId).value;
    var u1 := WithNewPassword(u0, p1, salt1, t1, c);
    var repo1 := Update(repo, u1);
    GetByIdAfterUpdate(repo, u1);
    var u2 := WithNewPassword(u1, p2, salt2, t2, c);
    GetByIdAfterUpdate(repo1, u2);
  }
}

=== FILE: strings.dfy ===
/** The parts of .NET's string library the identity core relies on:
    whitespace, trimming, ordinal case-insensitive comparison and `Split`. */
module Strings {

  /** `Char.IsWhiteSpace`, which is also the set `\s` matches in a .NET regular
      expression: the C0 controls TAB..CR, SPACE, NEL, NBSP and the Unicode
      space, line and paragraph separators. */
  predicate IsWhiteSpace(c: char) {
    || ('\t' <= c <= '\r')
    || c == ' ' || c == '\U{85}' || c == '\U{A0}' || c == '\U{1680}'
    || ('\U{2000}' <= c <= '\U{200A}')
    || c == '\U{2028}' || c == '\U{2029}' || c == '\U{202F}' || c == '\U{205F}'
    || c == '\U{3000}'
  }

  /** `string.IsNullOrWhiteSpace`; a null string is modelled as the empty one. */
  predicate IsBlank(s: string) {
    forall i :: 0 <= i < |s| ==> IsWhiteSpace(s[i])
  }

  /** The first position at or after `i` whose character is kept, or `|s|`. */
  function SkipFrom(s: string, drop: char -> bool, i: nat): (a: nat)
    requires i <= |s|
    ensures i <= a <= |s|
    ensures forall k :: i <= k < a ==> drop(s[k])
    ensures a == |s| || !drop(s[a])
    decreases |s| - i
  {
    if i < |s| && drop(s[i]) then SkipFrom(s, drop, i + 1) else i
  }

  /** The end of the kept part of `s[lo..j]`: the last position `b` down from
      `j` with a kept character just before it, or `lo`. */
  function KeepUntil(s: string, drop: char -> bool, lo: nat, j: nat): (b: nat)
    requires lo <= j <= |s|
    ensures lo <= b <= j
    ensures forall k :: b <= k < j ==> drop(s[k])
    ensures b == lo || !drop(s[b - 1])
    decreases j
  {
    if j > lo && drop(s[j - 1]) then KeepUntil(s, drop, lo, j - 1) else j
  }

  /** The number of leading characters trimming removes. */
  function LeadingRun(s: string, drop: char -> bool): (n: nat)
    ensures n <= |s|
  {
    SkipFrom(s, drop, 0)
  }

  /** Removes the characters satisfying `drop` from both ends: the result is the
      slice of `s` that starts after the leading run and stops before the trailing one. */
  function TrimBy(s: string, drop: char -> bool): (r: string)
    ensures LeadingRun(s, drop) + |r| <= |s|
    ensures r == s[LeadingRun(s, drop)..LeadingRun(s, drop) + |r|]
    ensures forall i :: 0 <= i < LeadingRun(s, drop) ==> drop(s[i])
    ensures forall i :: LeadingRun(s, drop) + |r| <= i < |s| ==> drop(s[i])
    ensures |r| == 0 || (!drop(r[0]) && !drop(r[|r| - 1]))
  {
    var a := SkipFrom(s, drop, 0);
    var b := KeepUntil(s, drop, a, |s|);
    s[a..b]
  }

  /** `string.Trim()`: the middle slice of `s` between its leading and
      trailing whitespace. */
  function Trim(s: string): (r: string)
    ensures IsBlank(s) <==> r == []
    ensures |r| == 0 || (!IsWhiteSpace(r[0]) && !IsWhiteSpace(r[|r| - 1]))
    ensures LeadingRun(s, IsWhiteSpace) + |r| <= |s|
    ensures r == s[LeadingRun(s, IsWhiteSpace)..LeadingRun(s, IsWhiteSpace) + |r|]
    ensures IsBlank(s[..LeadingRun(s, IsWhiteSpace)])
    ensures IsBlank(s[LeadingRun(s, IsWhiteSpace) + |r|..])
  {
    var r := TrimBy(s, IsWhiteSpace);
    r
  }

  /** `string.Length`: the number of UTF-16 code units, which is two for a
      character outside the Basic Multilingual Plane and one otherwise. */
  function Utf16Length(s: string): (n: nat)
    ensures |s| <= n <= 2 * |s|
    ensures (forall i :: 0 <= i < |s| ==> s[i] as int <= 0xFFFF) ==> n == |s|
    ensures |s| == 1 ==> n == (if s[0] as int > 0xFFFF then 2 else 1)
  {
    if |s| == 0 then 0 else (if s[0] as int > 0xFFFF then 2 else 1) + Utf16Length(s[1..])
  }

  /** Code units add up over concatenation. */
  lemma {:induction false} Utf16LengthAppend(a: string, b: string)
    ensures Utf16Length(a + b) == Utf16Length(a) + Utf16Length(b)
  {
    if |a| > 0 {
      assert (a + b)[0] == a[0] && (a + b)[1..] == a[1..] + b;
      Utf16LengthAppend(a[1..], b);
    } else {
      assert a + b == b;
    }
  }

  /** Trimming a string whose ends are kept changes nothing. */
  lemma TrimByUntouched(s: string, drop: char -> bool)
    requires |s| == 0 || (!drop(s[0]) && !drop(s[|s| - 1]))
    ensures TrimBy(s, drop) == s
  {
    assert SkipFrom(s, drop, 0) == 0;
    assert KeepUntil(s, drop, 0, |s|) == |s|;
  }

  /** Trimming a string that already has no whitespace at either end changes nothing. */
  lemma TrimUntouched(s: string)
    requires |s| == 0 || (!IsWhiteSpace(s[0]) && !IsWhiteSpace(s[|s| - 1]))
    ensures Trim(s) == s
  {
    TrimByUntouched(s, IsWhiteSpace);
  }

  /** `Trim` is idempotent. */
  lemma TrimIdempotent(s: string)
    ensures Trim(Trim(s)) == Trim(s)
  {
    TrimUntouched(Trim(s));
  }

  // ---------------------------------------------------------------------
  // Ordinal case-insensitive comparison (StringComparer.OrdinalIgnoreCase),
  // modelled with the ASCII case mapping.

  function ToUpperAscii(c: char): (u: char)
    ensures 'a' <= c <= 'z' ==> 'A' <= u <= 'Z' && u as int == c as int - 32
    ensures !('a' <= c <= 'z') ==> u == c
  {
    if 'a' <= c <= 'z' then (c as int - 32) as char else c
  }

  function ToLowerAscii(c: char): (l: char)
    ensures 'A' <= c <= 'Z' ==> 'a' <= l <= 'z' && l as int == c as int + 32
    ensures !('A' <= c <= 'Z') ==> l == c
  {
    if 'A' <= c <= 'Z' then (c as int + 32) as char else c
  }

  predicate EqualsIgnoreCase(a: string, b: string) {
    |a| == |b| && forall i :: 0 <= i < |a| ==> ToUpperAscii(a[i]) == ToUpperAscii(b[i])
  }

  /** The comparison is an equivalence, so it can be used as the key of a hash set. */
  lemma EqualsIgnoreCaseIsEquivalence(a: string, b: string, c: string)
    ensures EqualsIgnoreCase(a, a)
    ensures EqualsIgnoreCase(a, b) ==> EqualsIgnoreCase(b, a)
    ensures EqualsIgnoreCase(a, b) && EqualsIgnoreCase(b, c) ==> EqualsIgnoreCase(a, c)
  {
  }

  /** Membership in a `HashSet<string>` built with `StringComparer.OrdinalIgnoreCase`. */
  predicate ContainsIgnoreCase(xs: seq<string>, s: string) {
    exists k :: 0 <= k < |xs| && EqualsIgnoreCase(xs[k], s)
  }

  // ---------------------------------------------------------------------
  // string.Split(char)

  /** `s.Split(sep)`: every separator ends a field, and empty fields are kept. */
  function Split(s: string, sep: char): (parts: seq<string>)
    ensures |parts| >= 1
    ensures forall k :: 0 <= k < |parts| ==> sep !in parts[k]
    decreases |s|
  {
    if |s| == 0 then [""]
    else if s[0] == sep then [""] + Split(s[1..], sep)
    else
      var rest := Split(s[1..], sep);
      [[s[0]] + rest[0]] + rest[1..]
  }

  /** Joins fields with a separator, the inverse of `Split`. */
  function Join(parts: seq<string>, sep: char): string
    requires |parts| >= 1
  {
    if |parts| == 1 then parts[0] else parts[0] + [sep] + Join(parts[1..], sep)
  }

  /** A string without the separator is one field. */
  lemma {:induction false} SplitNoSeparator(s: string, sep: char)
    requires sep !in s
    ensures Split(s, sep) == [s]
    decreases |s|
  {
    if |s| > 0 {
      assert s == [s[0]] + s[1..];
      SplitNoSeparator(s[1..], sep);
    }
  }

  /** A field without the separator, followed by the separator, is split off whole. */
  lemma {:induction false} SplitField(a: string, sep: char, b: string)
    requires sep !in a
    ensures Split(a + [sep] + b, sep) == [a] + Split(b, sep)
    decreases |a|
  {
    var s := a + [sep] + b;
    if |a| == 0 {
      assert s[1..] == b;
    } else {
      assert s[1..] == a[1..] + [sep] + b;
      SplitField(a[1..], sep, b);
      assert [a[0]] + a[1..] == a;
    }
  }

  /** Round trip: splitting joined separator-free fields gives the fields back. */
  lemma {:induction false} SplitJoin(parts: seq<string>, sep: char)
    requires |parts| >= 1
    requires forall k :: 0 <= k < |parts| ==> sep !in parts[k]
    ensures Split(Join(parts, sep), sep) == parts
    decreases |parts|
  {
    if |parts| == 1 {
      SplitNoSeparator(parts[0], sep);
    } else {
      SplitJoin(parts[1..], sep);
      SplitField(parts[0], sep, Join(parts[1..], sep));
      assert [parts[0]] + parts[1..] == parts;
    }
  }
}

=== FILE: username.dfy ===
/** Username derivation (User.Application/Services/UsernameGenerator.cs):
    a handle built from a person's names, and a numeric suffix search that
    makes it unique against the existing usernames, ignoring case. */
module UsernameGenerator {
  import opened Options
  import opened Strings
  import opened Decimal

  const MaxLength: nat := 20
  const Fallback: string := "user"

  function Min(a: int, b: int): int { if a <= b then a else b }
  function Max(a: int, b: int): int { if a >= b then a else b }

  /** The characters a handle may contain: `[a-z0-9]`. */
  predicate IsHandleChar(c: char) {
    ('a' <= c <= 'z') || ('0' <= c <= '9')
  }

  predicate IsHandle(s: string) {
    forall i :: 0 <= i < |s| ==> IsHandleChar(s[i])
  }

  /** The first non-blank character of a name, or nothing when the name is
      null or blank. */
  function Initial(s: string): (r: string)
    ensures IsBlank(s) <==> r == []
    ensures r != [] ==> |r| == 1 && !IsWhiteSpace(r[0])
    ensures r != [] ==> exists k :: 0 <= k < |s| && s[k] == r[0] && IsBlank(s[..k])
  {
    if IsBlank(s) then "" else
      var k := LeadingRun(s, IsWhiteSpace);
      assert s[..k] == s[..k];
      [Trim(s)[0]]
  }

  /** Whether the initial of `s` lies outside the Basic Multilingual Plane.
      `s.Trim()[0]` is then only the high half of a surrogate pair, and the
      canonical decomposition of the raw handle rejects the lone surrogate
      with an `ArgumentException`. */
  predicate AstralInitial(s: string) {
    !IsBlank(s) && Trim(s)[0] as int > 0xFFFF
  }

  /** The noncharacter U+FFFE, which canonical decomposition in .NET rejects
      wherever it appears. */
  const NonCharacter: char := '\U{FFFE}'

  /** Whether `raw.Normalize(FormD)` throws an `ArgumentException` for the raw
      handle of these names: an initial outside the Basic Multilingual Plane
      leaves a lone surrogate in it, and U+FFFE may sit in either initial or
      anywhere in the paternal surname. `ToLowerInvariant` changes neither. */
  predicate NormalizationRejects(first: string, firstLast: string, secondLast: Option<string>) {
    || AstralInitial(first)
    || AstralInitial(secondLast.GetOr(""))
    || NonCharacter in Initial(first) + firstLast + Initial(secondLast.GetOr(""))
  }

  /** `ToLowerInvariant` followed by canonical decomposition and removal of the
      non-spacing marks, for ASCII and for the accented letters a Spanish name
      may contain; every other character is passed through. */
  function FoldChar(c: char): char {
    if 'A' <= c <= 'Z' then ToLowerAscii(c)
    else if c == 'Á' || c == 'á' then 'a'
    else if c == 'É' || c == 'é' then 'e'
    else if c == 'Í' || c == 'í' then 'i'
    else if c == 'Ó' || c == 'ó' then 'o'
    else if c == 'Ú' || c == 'ú' || c == 'Ü' || c == 'ü' then 'u'
    else if c == 'Ñ' || c == 'ñ' then 'n'
    else c
  }

  /** Folds every character and drops those outside `[a-z0-9]`
      (the `Regex.Replace(s, "[^a-z0-9]", "")` step). */
  function Clean(s: string): (r: string)
    ensures IsHandle(r) && |r| <= |s|
    ensures |s| == 1 ==> r == (if IsHandleChar(FoldChar(s[0])) then [FoldChar(s[0])] else [])
  {
    if |s| == 0 then ""
    else
      var c := FoldChar(s[0]);
      if IsHandleChar(c) then [c] + Clean(s[1..]) else Clean(s[1..])
  }

  /** The unsuffixed handle: the initial of the first name, the whole paternal
      surname and the initial of the maternal surname, folded and cleaned,
      cut to 20 characters, and "user" when nothing is left. `None` stands
      for the `ArgumentException` of the normalisation step. */
  function GenerateBase(first: string, firstLast: string, secondLast: Option<string>): (r: Option<string>)
    ensures r.None? <==> NormalizationRejects(first, firstLast, secondLast)
    ensures r.Some? ==> 1 <= |r.value| <= MaxLength && IsHandle(r.value)
    ensures r.Some? ==>
              var c := Clean(Initial(first) + firstLast + Initial(secondLast.GetOr("")));
              if c == [] then r.value == Fallback
              else r.value <= c && (|r.value| == MaxLength || r.value == c)
  {
    if NormalizationRejects(first, firstLast, secondLast) then None
    else
      var raw := Initial(first) + firstLast + Initial(secondLast.GetOr(""));
      var s := Clean(raw);
      var s := if |s| > MaxLength then s[..MaxLength] else s;
      Some(if |s| == 0 then Fallback else s)
  }

  /** Cleaning text that is already a lowercase handle changes nothing. */
  lemma {:induction false} CleanHandle(s: string)
    requires IsHandle(s)
    ensures Clean(s) == s
  {
    if |s| > 0 {
      CleanHandle(s[1..]);
      assert [s[0]] + s[1..] == s;
    }
  }

  /** Cleaning distributes over concatenation. */
  lemma {:induction false} CleanAppend(a: string, b: string)
    ensures Clean(a + b) == Clean(a) + Clean(b)
  {
    if |a| > 0 {
      assert (a + b)[0] == a[0];
      assert (a + b)[1..] == a[1..] + b;
      CleanAppend(a[1..], b);
    } else {
      assert a + b == b;
    }
  }

  /** A name that already is a short handle, split into its first letter and
      the rest, gives itself back. */
  lemma GenerateBaseOfHandle(h: string)
    requires 1 <= |h| <= MaxLength && IsHandle(h)
    ensures GenerateBase(h[..1], h[1..], None) == Some(h)
  {
    assert Initial("") == "";
    TrimUntouched(h[..1]);
    assert !AstralInitial(h[..1]);
    assert Initial(h[..1]) == h[..1];
    assert h[..1] + h[1..] + "" == h;
    assert !IsHandleChar(NonCharacter);
    CleanHandle(h);
  }

  /** A blank first name or maternal surname contributes nothing, exactly like
      an absent one. */
  lemma BlankNamesContributeNothing(first: string, firstLast: string, secondLast: string)
    requires IsBlank(first) && IsBlank(secondLast)
    ensures GenerateBase(first, firstLast, Some(secondLast)) == GenerateBase("", firstLast, None)
  {
    assert Initial(first) + firstLast + Initial(secondLast) == firstLast;
    assert Initial("") + firstLast + Initial("") == firstLast;
  }

  /** Ana García López becomes "agarcial": the accent is stripped and the
      maternal surname contributes its initial. */
  lemma GenerateBaseExample()
    ensures GenerateBase("Ana", "García", Some("López")) == Some("agarcial")
  {
    TrimUntouched("Ana");
    TrimUntouched("López");
    assert !AstralInitial("Ana") && !AstralInitial("López");
    assert Initial("Ana") + "García" + Initial("López") == "AGarcíaL";
    ExampleHasNoNonCharacter();
    CleanExample();
  }

  lemma ExampleHasNoNonCharacter()
    ensures NonCharacter !in "AGarcíaL"
  {
    assert forall k :: 0 <= k < |"AGarcíaL"| ==> "AGarcíaL"[k] as int < 0xFFFE;
  }

  /** A U+FFFE inside the paternal surname makes the normalisation throw. */
  lemma GenerateBaseRejectsNonCharacter()
    ensures GenerateBase("Ana", "Gar\U{FFFE}cia", None) == None
  {
    TrimUntouched("Ana");
    var raw := Initial("Ana") + "Gar\U{FFFE}cia" + Initial("");
    assert Initial("Ana") == "A";
    assert raw[4] == NonCharacter;
  }

  lemma CleanExample()
    ensures Clean("AGarcíaL") == "agarcial"
  {
    assert "AGarcíaL" == "AGar" + "cíaL";
    CleanAppend("AGar", "cíaL");
    CleanExampleHead();
    CleanExampleTail();
  }

  lemma CleanExampleHead()
    ensures Clean("AGar") == "agar"
  {
  }

  lemma CleanExampleTail()
    ensures Clean("cíaL") == "cial"
  {
  }

  // ---------------------------------------------------------------------
  // EnsureUnique

  /** Whether `s` is in the set built from `existing` with `OrdinalIgnoreCase`. */
  predicate Collides(existing: seq<string>, s: string) {
    ContainsIgnoreCase(existing, s)
  }

  /** The `i`-th suffixed candidate: the base followed by the decimal `i`, with
      the base cut short so that the whole fits in 20 characters, but never to
      fewer than one character. */
  function Candidate(base: string, i: nat): (c: string)
    requires i >= 1
    ensures |NatToString(i)| <= |c| <= |base| + |NatToString(i)|
    ensures c == base[..|c| - |NatToString(i)|] + NatToString(i)
    ensures |base| + |NatToString(i)| <= MaxLength ==> c == base + NatToString(i)
    ensures |c| <= Max(MaxLength, |NatToString(i)| + 1)
    ensures |base| >= 1 ==> |c| > |NatToString(i)|
    ensures |base| >= 1 && |base| + |NatToString(i)| > MaxLength ==> |c| == Max(MaxLength, |NatToString(i)| + 1)
  {
    var suffix := NatToString(i);
    var head := if |base| + |suffix| > MaxLength then base[..Min(|base|, Max(1, MaxLength - |suffix|))] else base;
    head + suffix
  }

  /** The length of the longest existing username. */
  function MaxLen(xs: seq<string>): (m: nat)
    ensures forall k :: 0 <= k < |xs| ==> |xs[k]| <= m
  {
    if |xs| == 0 then 0 else Max(|xs[0]|, MaxLen(xs[1..]))
  }

  /** A search bound: the candidate with suffix `10^m`, where `m` is the length
      of the longest existing username, is longer than every existing name, so
      it cannot collide. The suffix space is unbounded while the existing set
      is finite, which is why the search terminates. */
  function SearchBound(existing: seq<string>): (b: nat)
    ensures b >= 1
  {
    Pow10(MaxLen(existing))
  }

  lemma {:induction false} CandidateAtBoundIsFree(base: string, existing: seq<string>)
    ensures !Collides(existing, Candidate(base, SearchBound(existing)))
  {
    NatToStringPow10(MaxLen(existing));
  }

  /** `n` is the first suffix, counting from `i`, whose candidate is free. */
  predicate FirstFreeFrom(base: string, existing: seq<string>, i: nat, n: nat)
    requires i >= 1
  {
    && i <= n
    && !Collides(existing, Candidate(base, n))
    && forall k :: i <= k < n ==> Collides(existing, Candidate(base, k))
  }

  /** At most one suffix is the first free one. */
  lemma FirstFreeUnique(base: string, existing: seq<string>, i: nat, m: nat, n: nat)
    requires i >= 1
    requires FirstFreeFrom(base, existing, i, m) && FirstFreeFrom(base, existing, i, n)
    ensures m == n
  {
  }

  /** The first free suffix at or after `i`. */
  function FirstFreeIndex(base: string, existing: seq<string>, i: nat): (n: nat)
    requires 1 <= i <= SearchBound(existing)
    ensures FirstFreeFrom(base, existing, i, n) && n <= SearchBound(existing)
    decreases SearchBound(existing) - i
  {
    if !Collides(existing, Candidate(base, i)) then i
    else
      CandidateAtBoundIsFree(base, existing);
      FirstFreeIndex(base, existing, i + 1)
  }

  /** The username `EnsureUnique` returns: the base itself when it is free,
      otherwise the candidate of the first free suffix 1, 2, 3, ... */
  function EnsureUnique(base: string, existing: seq<string>): (r: string)
    ensures !Collides(existing, r)
    ensures !Collides(existing, base) ==> r == base
    ensures Collides(existing, base) ==>
              exists n :: 1 <= n && FirstFreeFrom(base, existing, 1, n) && r == Candidate(base, n)
    ensures IsHandle(base) ==> IsHandle(r)
    ensures |base| >= 1 ==> |r| >= 1
  {
    if !Collides(existing, base) then base
    else
      var c := Candidate(base, FirstFreeIndex(base, existing, 1));
      assert IsHandle(base) ==> IsHandle(c) by {
        var suffix := NatToString(FirstFreeIndex(base, existing, 1));
        assert forall k :: |c| - |suffix| <= k < |c| ==> c[k] == suffix[k - (|c| - |suffix|)];
      }
      c
  }

  /** The search loop of the source, step by step: try the base, then the
      suffixes 1, 2, 3, ... until a candidate is not in the set. */
  method EnsureUniqueLoop(baseUsername: string, existing: seq<string>) returns (candidate: string)
    ensures !Collides(existing, candidate)
    ensures candidate == EnsureUnique(baseUsername, existing)
  {
    ghost var bound := SearchBound(existing);
    CandidateAtBoundIsFree(baseUsername, existing);
    candidate := baseUsername;
    var i: nat := 1;
    while Collides(existing, candidate)
      invariant 1 <= i <= bound + 1
      invariant i == 1 ==> candidate == baseUsername
      invariant i > 1 ==> candidate == Candidate(baseUsername, i - 1)
      invariant i > 1 ==> Collides(existing, baseUsername)
      invariant forall k :: 1 <= k < i - 1 ==> Collides(existing, Candidate(baseUsername, k))
      decreases bound + 1 - i
    {
      var suffix := NatToString(i);
      var head := baseUsername;
      if |head| + |suffix| > MaxLength {
        head := head[..Min(|head|, Max(1, MaxLength - |suffix|))];
      }
      candidate := head + suffix;
      i := i + 1;
    }
    if i > 1 {
      FirstFreeUnique(baseUsername, existing, 1, i - 1, FirstFreeIndex(baseUsername, existing, 1));
    }
  }

  /** A free base comes back unchanged. */
  lemma EnsureUniqueKeepsFreeBase(base: string, existing: seq<string>)
    requires !Collides(existing, base)
    ensures EnsureUnique(base, existing) == base
  {
  }

  /** The result keeps the length bound as long as the suffix has fewer than
      20 digits. */
  lemma EnsureUniqueLength(base: string, existing: seq<string>)
    requires |base| <= MaxLength
    requires Collides(existing, base) ==> |NatToString(FirstFreeIndex(base, existing, 1))| < MaxLength
    ensures |EnsureUnique(base, existing)| <= MaxLength
  {
  }

  /** With "agarcial" taken, "agarcial1" is chosen. */
  lemma EnsureUniqueExample()
    ensures EnsureUnique("agarcial", ["agarcial"]) == "agarcial1"
  {
    var existing := ["agarcial"];
    assert EqualsIgnoreCase(existing[0], "agarcial");
    assert Collides(existing, "agarcial");
    assert NatToString(1) == "1";
    assert Candidate("agarcial", 1) == "agarcial1";
    assert !EqualsIgnoreCase("agarcial", "agarcial1");
    assert !Collides(existing, "agarcial1");
    assert SearchBound(existing) >= 1;
    assert FirstFreeIndex("agarcial", existing, 1) == 1;
  }
}

=== FILE: validator.dfy ===
/** Field validation of a user record (User.Domain/Validators/UserValidator.cs).
    Errors accumulate as (field, problem) pairs, the `WithFieldError` of
    User.Domain/Validators/ResultExtension.cs; the record is valid when none
    was added. */
module UserValidator {
  import opened Options
  import opened Strings
  import opened Decimal
  import opened Entities

  /** What an error message says; each field uses the kinds that apply to it. */
  datatype Problem =
    | Required     // "... es obligatorio."
    | Length       // "... debe tener entre N y M caracteres/dígitos."
    | Letters      // "... solo debe contener letras y espacios."
    | TooLong      // "El correo no debe exceder 100 caracteres."
    | Format       // "El correo no tiene un formato válido." / the CI format message
    | OnlyDigits   // "El teléfono solo debe contener números."

  /** The six validated fields. */
  datatype Field = FirstName | LastSecondName | LastFirstName | Mail | Ci | Phone

  /** The key an error is filed under in the error dictionary. */
  function Key(f: Field): (k: string)
    ensures |k| > 0
  {
    match f
    case FirstName => "first_name"
    case LastSecondName => "last_second_name"
    case LastFirstName => "last_first_name"
    case Mail => "mail"
    case Ci => "ci"
    case Phone => "phone"
  }

  /** Distinct fields are filed under distinct keys. */
  lemma KeysDistinct(f: Field, g: Field)
    ensures Key(f) == Key(g) <==> f == g
  {
  }

  datatype FieldError = FieldError(field: Field, problem: Problem)

  // ---------------------------------------------------------------------
  // The four regular expressions

  /** `$` without `RegexOptions.Multiline` matches at the very end of the input
      or just before a final line feed, so a pattern `^body$` accepts `s` when
      `body` matches `s`, or `s` minus one trailing '\n'. */
  predicate EndAnchored(s: string, body: string -> bool) {
    body(s) || (|s| > 0 && s[|s| - 1] == '\n' && body(s[..|s| - 1]))
  }

  /** `[A-Za-zÁÉÍÓÚÜÑáéíóúüñ ]` */
  predicate IsNameChar(c: char) {
    || ('A' <= c <= 'Z') || ('a' <= c <= 'z') || c == ' '
    || c == 'Á' || c == 'É' || c == 'Í' || c == 'Ó' || c == 'Ú' || c == 'Ü' || c == 'Ñ'
    || c == 'á' || c == 'é' || c == 'í' || c == 'ó' || c == 'ú' || c == 'ü' || c == 'ñ'
  }

  /** The body of `^[A-Za-zÁÉÍÓÚÜÑáéíóúüñ ]+$`. */
  predicate NameText(s: string) {
    |s| >= 1 && forall i :: 0 <= i < |s| ==> IsNameChar(s[i])
  }

  /** `[^@\s]` */
  predicate IsMailChar(c: char) {
    c != '@' && !IsWhiteSpace(c)
  }

  /** The body of `^[^@\s]+@[^@\s]+\.[^@\s]+$`, position by position: an `@`
      at `i` and a `.` at `j` with at least one character before the `@`,
      between the two, and after the `.`, and every other character in `[^@\s]`. */
  predicate EmailText(s: string) {
    exists i, j :: 0 < i && i + 1 < j && j + 1 < |s| && s[i] == '@' && s[j] == '.'
                   && forall k :: 0 <= k < |s| && k != i ==> IsMailChar(s[k])
  }

  predicate IsAsciiLetter(c: char) {
    ('A' <= c <= 'Z') || ('a' <= c <= 'z')
  }

  /** One alternative of `^[A-Z]?\d{5,12}[A-Z]?$` under `IgnoreCase`: `p`
      leading letters and `q` trailing letters (each 0 or 1) around 5 to 12 digits. */
  predicate CiAlternative(s: string, p: nat, q: nat)
    requires p <= 1 && q <= 1
  {
    && p + 5 + q <= |s| <= p + 12 + q
    && (p == 1 ==> IsAsciiLetter(s[0]))
    && (q == 1 ==> IsAsciiLetter(s[|s| - 1]))
    && AllDigits(s[p..|s| - q])
  }

  /** The body of the CI pattern: one of its four alternatives. */
  predicate CiText(s: string) {
    CiAlternative(s, 0, 0) || CiAlternative(s, 1, 0) || CiAlternative(s, 0, 1) || CiAlternative(s, 1, 1)
  }

  /** The body of `^\d+$`. */
  predicate DigitsText(s: string) {
    |s| >= 1 && AllDigits(s)
  }

  // ---------------------------------------------------------------------
  // Field rules

  /** The length and alphabet rules of a name that is present: both errors
      may be reported. */
  function PresentNameErrors(field: Field, s: string): (r: seq<FieldError>)
    ensures forall e :: e in r ==> e.field == field
    ensures FieldError(field, Length) in r <==> Utf16Length(s) < 2 || Utf16Length(s) > 50
    ensures FieldError(field, Letters) in r <==> !EndAnchored(s, NameText)
    ensures FieldError(field, Required) !in r
    ensures forall e :: e in r ==> e.problem == Length || e.problem == Letters
    ensures |r| <= 2
  {
    (if Utf16Length(s) < 2 || Utf16Length(s) > 50 then [FieldError(field, Length)] else [])
    + (if !EndAnchored(s, NameText) then [FieldError(field, Letters)] else [])
  }

  /** A mandatory name: a blank one gets exactly one "required" error. */
  function RequiredNameErrors(field: Field, s: string): (r: seq<FieldError>)
    ensures forall e :: e in r ==> e.field == field
    ensures IsBlank(s) ==> r == [FieldError(field, Required)]
    ensures !IsBlank(s) ==> FieldError(field, Required) !in r
    ensures r == [] <==> !IsBlank(s) && 2 <= Utf16Length(s) <= 50 && EndAnchored(s, NameText)
  {
    if IsBlank(s) then [FieldError(field, Required)] else PresentNameErrors(field, s)
  }

  /** The optional maternal surname: absent or blank is fine. */
  function OptionalNameErrors(field: Field, s: Option<string>): (r: seq<FieldError>)
    ensures forall e :: e in r ==> e.field == field
    ensures s.None? || IsBlank(s.value) ==> r == []
    ensures FieldError(field, Required) !in r
    ensures r == [] <==> s.None? || IsBlank(s.value) || (2 <= Utf16Length(s.value) <= 50 && EndAnchored(s.value, NameText))
  {
    match s
    case None => []
    case Some(v) => if IsBlank(v) then [] else PresentNameErrors(field, v)
  }

  function MailErrors(mail: string): (r: seq<FieldError>)
    ensures forall e :: e in r ==> e.field == Mail
    ensures IsBlank(mail) ==> r == [FieldError(Mail, Required)]
    ensures FieldError(Mail, TooLong) in r <==> !IsBlank(mail) && Utf16Length(mail) > 100
    ensures FieldError(Mail, Format) in r <==> !IsBlank(mail) && !EndAnchored(mail, EmailText)
    ensures forall e :: e in r ==> e.problem == Required || e.problem == TooLong || e.problem == Format
    ensures |r| <= 2
    ensures r == [] <==> !IsBlank(mail) && Utf16Length(mail) <= 100 && EndAnchored(mail, EmailText)
  {
    if IsBlank(mail) then [FieldError(Mail, Required)]
    else
      (if Utf16Length(mail) > 100 then [FieldError(Mail, TooLong)] else [])
      + (if !EndAnchored(mail, EmailText) then [FieldError(Mail, Format)] else [])
  }

  function CiErrors(ci: string): (r: seq<FieldError>)
    ensures forall e :: e in r ==> e.field == Ci
    ensures |r| <= 1
    ensures IsBlank(ci) ==> r == [FieldError(Ci, Required)]
    ensures !IsBlank(ci) && !EndAnchored(ci, CiText) ==> r == [FieldError(Ci, Format)]
    ensures r == [] <==> !IsBlank(ci) && EndAnchored(ci, CiText)
  {
    if IsBlank(ci) then [FieldError(Ci, Required)]
    else if !EndAnchored(ci, CiText) then [FieldError(Ci, Format)]
    else []
  }

  function PhoneErrors(phone: string): (r: seq<FieldError>)
    ensures forall e :: e in r ==> e.field == Phone
    ensures IsBlank(phone) ==> r == [FieldError(Phone, Required)]
    ensures FieldError(Phone, OnlyDigits) in r <==> !IsBlank(phone) && !EndAnchored(phone, DigitsText)
    ensures FieldError(Phone, Length) in r <==> !IsBlank(phone) && (Utf16Length(phone) < 6 || Utf16Length(phone) > 10)
    ensures r == [] <==> !IsBlank(phone) && EndAnchored(phone, DigitsText) && 6 <= Utf16Length(phone) <= 10
    ensures forall e :: e in r ==> e.problem == Required || e.problem == OnlyDigits || e.problem == Length
    ensures |r| <= 2
  {
    if IsBlank(phone) then [FieldError(Phone, Required)]
    else
      (if !EndAnchored(phone, DigitsText) then [FieldError(Phone, OnlyDigits)] else [])
      + (if Utf16Length(phone) < 6 || Utf16Length(phone) > 10 then [FieldError(Phone, Length)] else [])
  }

  /** A record every rule accepts, stated field by field. */
  predicate ValidUser(u: UserEntity) {
    && !IsBlank(u.firstName) && 2 <= Utf16Length(u.firstName) <= 50 && EndAnchored(u.firstName, NameText)
    && !IsBlank(u.lastFirstName) && 2 <= Utf16Length(u.lastFirstName) <= 50 && EndAnchored(u.lastFirstName, NameText)
    && (u.lastSecondName.Some? && !IsBlank(u.lastSecondName.value) ==>
          2 <= Utf16Length(u.lastSecondName.value) <= 50 && EndAnchored(u.lastSecondName.value, NameText))
    && !IsBlank(u.mail) && Utf16Length(u.mail) <= 100 && EndAnchored(u.mail, EmailText)
    && !IsBlank(u.ci) && EndAnchored(u.ci, CiText)
    && !IsBlank(u.phone) && EndAnchored(u.phone, DigitsText) && 6 <= Utf16Length(u.phone) <= 10
  }

  /** `Validate`: the fields are checked in the order first name, maternal
      surname, paternal surname, mail, CI, phone. The result is a success iff
      no error was added, which happens iff the record is valid. */
  function Validate(u: UserEntity): (errors: seq<FieldError>)
    ensures errors == [] <==> ValidUser(u)
  {
    RequiredNameErrors(FirstName, u.firstName)
    + OptionalNameErrors(LastSecondName, u.lastSecondName)
    + RequiredNameErrors(LastFirstName, u.lastFirstName)
    + MailErrors(u.mail)
    + CiErrors(u.ci)
    + PhoneErrors(u.phone)
  }

  // ---------------------------------------------------------------------
  // Errors are keyed by field

  /** The errors reported for one field, in order. */
  function ErrorsOf(errors: seq<FieldError>, field: Field): (r: seq<FieldError>)
    ensures forall e :: e in r <==> e in errors && e.field == field
  {
    if |errors| == 0 then []
    else (if errors[0].field == field then [errors[0]] else []) + ErrorsOf(errors[1..], field)
  }

  lemma {:induction false} ErrorsOfAppend(a: seq<FieldError>, b: seq<FieldError>, field: Field)
    ensures ErrorsOf(a + b, field) == ErrorsOf(a, field) + ErrorsOf(b, field)
  {
    if |a| == 0 {
      assert a + b == b;
    } else {
      assert (a + b)[0] == a[0];
      assert (a + b)[1..] == a[1..] + b;
      ErrorsOfAppend(a[1..], b, field);
    }
  }

  /** Filtering a list of errors that all carry `owner`. */
  lemma {:induction false} ErrorsOfOwn(errors: seq<FieldError>, owner: Field, field: Field)
    requires forall e :: e in errors ==> e.field == owner
    ensures ErrorsOf(errors, field) == if field == owner then errors else []
  {
    if |errors| > 0 {
      assert errors[0] in errors;
      ErrorsOfOwn(errors[1..], owner, field);
      assert [errors[0]] + errors[1..] == errors;
    }
  }

  /** Filtering the errors of one field out of a list that another field owns,
      or out of a list that field owns. */
  function Own(errors: seq<FieldError>, owner: Field, f: Field): seq<FieldError> {
    if f == owner then errors else []
  }

  /** Filtering six consecutive groups of errors, each owned by one field. */
  lemma ErrorsOfGroups(a: seq<FieldError>, oa: Field, b: seq<FieldError>, ob: Field,
                       c: seq<FieldError>, oc: Field, d: seq<FieldError>, od: Field,
                       e: seq<FieldError>, oe: Field, h: seq<FieldError>, oh: Field, f: Field)
    requires forall x :: x in a ==> x.field == oa
    requires forall x :: x in b ==> x.field == ob
    requires forall x :: x in c ==> x.field == oc
    requires forall x :: x in d ==> x.field == od
    requires forall x :: x in e ==> x.field == oe
    requires forall x :: x in h ==> x.field == oh
    ensures ErrorsOf(a + b + c + d + e + h, f)
            == Own(a, oa, f) + Own(b, ob, f) + Own(c, oc, f) + Own(d, od, f) + Own(e, oe, f) + Own(h, oh, f)
  {
    ErrorsOfAppend(a, b, f);
    ErrorsOfAppend(a + b, c, f);
    ErrorsOfAppend(a + b + c, d, f);
    ErrorsOfAppend(a + b + c + d, e, f);
    ErrorsOfAppend(a + b + c + d + e, h, f);
    ErrorsOfOwn(a, oa, f);
    ErrorsOfOwn(b, ob, f);
    ErrorsOfOwn(c, oc, f);
    ErrorsOfOwn(d, od, f);
    ErrorsOfOwn(e, oe, f);
    ErrorsOfOwn(h, oh, f);
  }

  /** The errors of each field are exactly that field's own rules applied to
      that field's value: no field's outcome depends on another field. */
  lemma ValidateByField(u: UserEntity, f: Field)
    ensures ErrorsOf(Validate(u), f) ==
              Own(RequiredNameErrors(FirstName, u.firstName), FirstName, f)
              + Own(OptionalNameErrors(LastSecondName, u.lastSecondName), LastSecondName, f)
              + Own(RequiredNameErrors(LastFirstName, u.lastFirstName), LastFirstName, f)
              + Own(MailErrors(u.mail), Mail, f)
              + Own(CiErrors(u.ci), Ci, f)
              + Own(PhoneErrors(u.phone), Phone, f)
  {
    ErrorsOfGroups(RequiredNameErrors(FirstName, u.firstName), FirstName,
                   OptionalNameErrors(LastSecondName, u.lastSecondName), LastSecondName,
                   RequiredNameErrors(LastFirstName, u.lastFirstName), LastFirstName,
                   MailErrors(u.mail), Mail, CiErrors(u.ci), Ci, PhoneErrors(u.phone), Phone, f);
  }

  /** A field's own rules applied to that field's value. */
  function FieldErrors(u: UserEntity, f: Field): seq<FieldError> {
    match f
    case FirstName => RequiredNameErrors(FirstName, u.firstName)
    case LastSecondName => OptionalNameErrors(LastSecondName, u.lastSecondName)
    case LastFirstName => RequiredNameErrors(LastFirstName, u.lastFirstName)
    case Mail => MailErrors(u.mail)
    case Ci => CiErrors(u.ci)
    case Phone => PhoneErrors(u.phone)
  }

  /** The errors `Validate` reports under each field are that field's own
      rules, and nothing else. */
  lemma ValidateFields(u: UserEntity, f: Field)
    ensures ErrorsOf(Validate(u), f) == FieldErrors(u, f)
  {
    ValidateByField(u, f);
    PickGroup(RequiredNameErrors(FirstName, u.firstName), OptionalNameErrors(LastSecondName, u.lastSecondName),
              RequiredNameErrors(LastFirstName, u.lastFirstName), MailErrors(u.mail), CiErrors(u.ci),
              PhoneErrors(u.phone), f);
  }

  /** Of six groups owned by the six fields in `Validate`'s order, one field
      sees only its own group. */
  lemma PickGroup(a: seq<FieldError>, b: seq<FieldError>, c: seq<FieldError>,
                  d: seq<FieldError>, e: seq<FieldError>, h: seq<FieldError>, f: Field)
    ensures Own(a, FirstName, f) + Own(b, LastSecondName, f) + Own(c, LastFirstName, f)
            + Own(d, Mail, f) + Own(e, Ci, f) + Own(h, Phone, f)
            == match f
               case FirstName => a
               case LastSecondName => b
               case LastFirstName => c
               case Mail => d
               case Ci => e
               case Phone => h
  {
    match f
    case FirstName => assert a + [] + [] + [] + [] + [] == a;
    case LastSecondName => assert [] + b + [] + [] + [] + [] == b;
    case LastFirstName => assert [] + [] + c + [] + [] + [] == c;
    case Mail => assert [] + [] + [] + d + [] + [] == d;
    case Ci => assert [] + [] + [] + [] + e + [] == e;
    case Phone => assert [] + [] + [] + [] + [] + h == h;
  }

  /** Two records that agree on a field get the same errors for it. */
  lemma FieldErrorsIndependent(u: UserEntity, v: UserEntity, f: Field)
    requires f == Mail ==> u.mail == v.mail
    requires f == Ci ==> u.ci == v.ci
    requires f == Phone ==> u.phone == v.phone
    requires f == FirstName ==> u.firstName == v.firstName
    requires f == LastFirstName ==> u.lastFirstName == v.lastFirstName
    requires f == LastSecondName ==> u.lastSecondName == v.lastSecondName
    ensures ErrorsOf(Validate(u), f) == ErrorsOf(Validate(v), f)
  {
    ValidateFields(u, f);
    ValidateFields(v, f);
  }

  // ---------------------------------------------------------------------
  // The shapes the patterns accept, stated without positions

  predicate NoAtNoSpace(s: string) {
    forall k :: 0 <= k < |s| ==> IsMailChar(s[k])
  }

  /** A mail address shape: a non-empty local part, one `@`, and a domain
      with a `.` that is neither its first nor its last character; no `@`
      elsewhere and no whitespace anywhere. */
  predicate MailShape(s: string) {
    exists i :: 0 < i < |s| && s[i] == '@' && NoAtNoSpace(s[..i]) && DomainShape(s[i + 1..])
  }

  predicate DomainShape(d: string) {
    NoAtNoSpace(d) && exists j :: 0 < j < |d| - 1 && d[j] == '.'
  }

  lemma EmailTextIsMailShape(s: string)
    ensures EmailText(s) <==> MailShape(s)
  {
    if EmailText(s) {
      var i, j :| 0 < i && i + 1 < j && j + 1 < |s| && s[i] == '@' && s[j] == '.'
                  && forall k :: 0 <= k < |s| && k != i ==> IsMailChar(s[k]);
      assert s[i + 1..][j - i - 1] == '.';
      assert NoAtNoSpace(s[..i]);
      assert DomainShape(s[i + 1..]);
    }
    if MailShape(s) {
      var i :| 0 < i < |s| && s[i] == '@' && NoAtNoSpace(s[..i]) && DomainShape(s[i + 1..]);
      var d := s[i + 1..];
      var j :| 0 < j < |d| - 1 && d[j] == '.';
      assert s[i + 1 + j] == '.';
      forall k | 0 <= k < |s| && k != i
        ensures IsMailChar(s[k])
      {
        if k < i { assert s[k] == s[..i][k]; } else { assert s[k] == d[k - i - 1]; }
      }
    }
  }

  /** The CI shape decided left to right: drop one leading letter if there is
      one, then one trailing letter if there is one, and what remains must be
      5 to 12 digits. */
  predicate CiShape(s: string) {
    var p := if |s| > 0 && IsAsciiLetter(s[0]) then 1 else 0;
    var q := if |s| > p && IsAsciiLetter(s[|s| - 1]) then 1 else 0;
    5 <= |s| - p - q <= 12 && AllDigits(s[p..|s| - q])
  }

  /** The regular expression's four alternatives accept exactly the CI shape. */
  lemma CiTextIsCiShape(s: string)
    ensures CiText(s) <==> CiShape(s)
  {
    var p := if |s| > 0 && IsAsciiLetter(s[0]) then 1 else 0;
    var q := if |s| > p && IsAsciiLetter(s[|s| - 1]) then 1 else 0;
    // a letter is not a digit, so an alternative that matches strips exactly
    // the letters at the ends
    forall p': nat, q': nat | p' <= 1 && q' <= 1 && CiAlternative(s, p', q')
      ensures p' == p && q' == q
    {
      var body := s[p'..|s| - q'];
      assert body[0] == s[p'] && body[|body| - 1] == s[|s| - q' - 1];
      assert IsDigit(body[0]) && IsDigit(body[|body| - 1]);
    }
    if CiShape(s) {
      assert CiAlternative(s, p, q);
    }
  }

  /** An optional letter, 5 to 12 digits and an optional letter pass the CI
      rule. */
  lemma CiAccepted(p: string, digits: string, q: string)
    requires |p| <= 1 && |q| <= 1
    requires p == [] || IsAsciiLetter(p[0])
    requires q == [] || IsAsciiLetter(q[0])
    requires 5 <= |digits| <= 12 && AllDigits(digits)
    ensures CiErrors(p + digits + q) == []
  {
    var s := p + digits + q;
    assert s[|p|..|s| - |q|] == digits;
    assert s[|p|] == digits[0] && !IsWhiteSpace(s[|p|]);
    assert CiAlternative(s, |p|, |q|);
  }

  /** The examples of the source's comment are accepted: seven digits, with
      the foreign-resident prefix 'E', with a letter suffix, with both. */
  lemma CiExamplesAccepted()
    ensures CiErrors("1234567") == [] && CiErrors("E1234567") == []
    ensures CiErrors("1234567A") == [] && CiErrors("E1234567A") == []
  {
    CiAccepted("", "1234567", "");
    assert "" + "1234567" + "" == "1234567";
    CiAccepted("E", "1234567", "");
    assert "E" + "1234567" + "" == "E1234567";
    CiAccepted("", "1234567", "A");
    assert "" + "1234567" + "A" == "1234567A";
    CiAccepted("E", "1234567", "A");
    assert "E" + "1234567" + "A" == "E1234567A";
  }

  /** Fewer than five digits is a format error. */
  lemma CiTooShortRejected()
    ensures CiErrors("1234") == [FieldError(Ci, Format)]
  {
    CiTextIsCiShape("1234");
    CiTextIsCiShape("123");
  }

  /** `$` lets one final line feed through: a phone number followed by '\n'
      passes every phone rule, because the line feed is also counted in the
      length and the length is still in range. */
  lemma PhoneTrailingLineFeed()
    ensures PhoneErrors("123456\n") == []
  {
    var phone := "123456\n";
    assert phone[..6] == "123456";
    assert DigitsText("123456");
    assert !IsWhiteSpace(phone[0]);
  }
}
